=== FILE: README.md ===
# Lightpack client protocol model

A Dafny model of the protocol logic of `Lightpack`, the Python client for the
Lightpack/Prismatik ambient-light API (`lightpack.py`). The client talks to
the server in text lines of the form `name:payload`. Per-LED colours and
sizes travel as snippets `index-v1,v2,...` joined by `;`. Settings are
`name:argument` lines answered `ok`. Lock and unlock are answered
`<name>:success`.

The socket is replaced by a function `Server = string -> string` from the
line the client writes to the line it reads back. Every method is a function
returning a `Step`, which holds:

- the commands sent, in order;
- the client state afterwards (the caches);
- the value, or the exception the Python method would raise.

"Raises before anything is sent" and "sends exactly one command" are
therefore statements about `Step.sent`.

Modules, one file each:

- `wrappers.dfy` (`Wrappers`): `Option`, `Result`, and `AllOf` for list
  comprehensions whose body may raise.
- `strings.dfy` (`Strings`): the Python string operations the client relies
  on. These are `list.index`, `str.split` with `maxsplit`, `join`,
  `rstrip`, `strip`, `'%d'` and `int()`, together with their round trips.
- `versions.dfy` (`Versions`): `StrictVersion` as `major.minor`, its order,
  and the accepted range [1.4, 2.2].
- `wire.dfy` (`Wire`): the codec. It covers name and payload, LED snippets,
  `;`-separated lists, rectangles and sound-visualisation colours.
- `lightpack.dfy` (`Lightpack`): the client state and the exceptions. It
  also covers the request/reply checks, LED alias and index resolution, and
  the cached getters.
- `commands.dfy` (`Commands`): the version gates, the plain getters and
  setters, the colour reads, and the multi-LED writes. It also covers
  `setColourToAll`, lock/unlock, `connect` and `disconnect`.

Negative LED positions are modelled as the code treats them. `_ledIndex`
accepts any `led` with `led + 1 <= count`, so position -2 or lower yields a
snippet starting with `-`. `Wire.SnippetReadableIff` shows that such a
snippet does not read back. The read-back lemmas therefore require positions
of -1 or more.

## Model

| member | source | states |
|---|---|---|
| Wrappers.AllOf | lightpack.py:233-233 | a comprehension of a raising conversion succeeds exactly when every element converts, and then gives each element's value in order |
| Wrappers.Result.ToOption | lightpack.py:411-420 | a caught exception becomes `None`; a value is kept unchanged |
| Strings.IndexOf | lightpack.py:89-91 | `list.index`: absent exactly when the item is not in the list; otherwise the first position holding it |
| Strings.IndexOfAfter | lightpack.py:89-91 | an item preceded only by other items is found at its position |
| Strings.Split | lightpack.py:113-120 | `split(sep, maxsplit)` gives at least one part and at most `maxsplit + 1`; a string without the separator is one part; no part but the last holds the separator |
| Strings.SplitThenJoin | lightpack.py:113-120 | joining the parts of a split at the separator rebuilds the string |
| Strings.Join | lightpack.py:669-669 | `';'.join(defs)`: the first piece comes first and, with two or more pieces, the separator follows it; JoinThenSplit inverts it |
| Strings.JoinThenSplit | lightpack.py:660-669 | pieces without the separator, joined and split again, come back unchanged |
| Strings.JoinEndsWithLastPart | lightpack.py:660-669 | a join ends with the last character of its last piece |
| Strings.RStrip | lightpack.py:243-244 | `rstrip(c)` is a prefix that does not end in `c`, and everything removed is `c` |
| Strings.RStripAppended | lightpack.py:243-244 | stripping removes exactly the trailing copies of `c` and nothing of the text before them |
| Strings.Strip | lightpack.py:415-415 | `strip()` is never longer than the text and neither starts nor ends with whitespace |
| Strings.StripTrims | lightpack.py:415-415 | `strip()` keeps a slice of the text with only whitespace before and after it; it is empty exactly when the text is all whitespace |
| Strings.StripIsLR | lightpack.py:415-415 | `strip()` is `lstrip()` followed by `rstrip()` |
| Strings.StripPadded | lightpack.py:415-415 | text with non-blank ends survives `strip()` unchanged between any whitespace padding |
| Strings.FormatNat | lightpack.py:646-646 | `'%d'` of a natural number is a non-empty run of digits |
| Strings.FormatInt | lightpack.py:646-646 | `'%d'` of an integer is digits, with a leading `-` exactly for negative numbers |
| Strings.ParseDigits | lightpack.py:443-443 | a run of digits reads as a number exactly when it is non-empty and all digits |
| Strings.ParseDigitsValue | lightpack.py:443-443 | `int()` of any run of decimal digits, leading zeros included, is its positional value read from the most significant digit |
| Strings.ParseLeadingZeros | lightpack.py:443-443 | zeros in front of a digit run change neither whether it reads nor the number it reads as |
| Strings.ParseIntZeroPadded | lightpack.py:443-443 | `int()` of zero-padded digits is their number: `int('007') == 7` |
| Strings.ParseIntNegativeZeroPadded | lightpack.py:443-443 | `int()` of `-` and zero-padded digits is the negated number: `int('-007') == -7`, `int('-0') == 0` |
| Strings.ParseInt | lightpack.py:443-443 | `int()` accepts only text that is not blank once stripped |
| Strings.ParseIntAccepts | lightpack.py:443-443 | `int()` accepts exactly the text that, once stripped, is a run of digits with an optional `+` or `-` before it |
| Strings.ParsePadded | lightpack.py:443-443 | `int()` reads a `%d`-formatted number back whatever whitespace surrounds it |
| Strings.ParsePlus | lightpack.py:443-443 | `int()` reads digits after an explicit `+`, with surrounding whitespace, as the number they write |
| Strings.ParseFormatNat | lightpack.py:443-443 | `int()` of the digits of `n` is `n` |
| Strings.ParseFormatInt | lightpack.py:635-646 | `int('%d' % n) == n` for every integer, negative ones included |
| Strings.FormatIntNotBlank | lightpack.py:415-415 | a formatted integer survives the `if x.strip()` filter unchanged |
| Versions.Supported | lightpack.py:22-23 | a version is accepted exactly when it lies in 1.4 to 1.x or 2.0 to 2.2 |
| Versions.BelowIsStrictTotalOrder | lightpack.py:622-624 | version comparison is irreflexive, transitive, total and asymmetric |
| Wire.CommandPart | lightpack.py:113-120 | part 0 always exists; part 1 exists exactly when the line has a colon; no further part exists |
| Wire.Name | lightpack.py:122-127 | the name is a colon-free prefix of the line, and the whole line when it has no colon |
| Wire.Payload | lightpack.py:129-134 | no payload exactly when there is no colon; otherwise name, colon and payload rebuild the line |
| Wire.NameAndPayloadOfLine | lightpack.py:113-134 | a line `name:payload` with a colon-free name splits back into that name and payload, whatever the payload holds |
| Wire.SnippetAvoids | lightpack.py:646-646 | a snippet contains only digits, `-` and `,` |
| Wire.FieldsSplit | lightpack.py:233-233 | comma-joined values split back into their `'%d'` texts |
| Wire.ReadSnippet | lightpack.py:223-234 | a snippet that reads holds a `-` and one to `maxsplit + 1` values |
| Wire.LedColourDef | lightpack.py:635-646 | `_ledColourDef` holds no `;` or `:`, and `_ledColourRead` gives back the index and colour for a non-negative index |
| Wire.LedSizeDef | lightpack.py:786-795 | `_ledSizeDef` holds no `;` or `:`, and `_ledSizeRead` gives back the index and rectangle for a non-negative index |
| Wire.ParseColours | lightpack.py:243-248 | the `getcolors` loop fills the dictionary exactly when every entry reads with `_ledColourRead`, each LED getting one to three values |
| Wire.ParseLedSizes | lightpack.py:485-491 | the `getleds` loop fills the dictionary exactly when every entry reads with `_ledSizeRead`, each LED getting one to four values |
| Wire.LedColourRead | lightpack.py:223-234 | a colour snippet reads as an LED and one to three values |
| Wire.LedSizeRead | lightpack.py:461-471 | a size snippet reads as an LED and one to four values |
| Wire.SnippetRoundTrip | lightpack.py:635-646 | a snippet written for a non-negative index reads back as that index and those values |
| Wire.SnippetReadableIff | lightpack.py:223-234 | a written snippet reads back exactly when its index is not negative |
| Wire.LedColourRoundTrip | lightpack.py:635-646 | `_ledColourRead` inverts `_ledColourDef` for non-negative indices |
| Wire.LedSizeRoundTrip | lightpack.py:786-795 | `_ledSizeRead` inverts `_ledSizeDef` for non-negative indices |
| Wire.ListEntries | lightpack.py:340-341 | a list reply gives at least one entry, and no entry holds `;` |
| Wire.ListEntriesRoundTrip | lightpack.py:328-342 | items joined by `;`, followed by any number of `;`, read back as the items |
| Wire.EmptyListEntries | lightpack.py:340-341 | an empty list reply, `""` or only `;`, reads as the one entry `""` |
| Wire.ToMapKeys | lightpack.py:245-248 | the dictionary built by the loop has exactly the LEDs of the entries as keys |
| Wire.ToMapLastWins | lightpack.py:245-248 | an LED maps to the values of its last entry |
| Wire.ReadWhile | lightpack.py:488-491 | the loop stores the entries read before the first snippet that raises, each the reading of its snippet |
| Wire.SnippetsRoundTrip | lightpack.py:236-249 | every snippet of written entries reads back as its entry |
| Wire.SnippetListSplits | lightpack.py:243-244 | snippets joined by `;` split back into those snippets |
| Wire.LedListRoundTrip | lightpack.py:236-249 | a `getcolors`/`getleds` payload written from entries, with trailing `;`, parses to the dictionary of those entries |
| Wire.GetColorsExample | lightpack.py:236-249 | `1-10,20,30;2-40,50,60;` parses to `{1: (10,20,30), 2: (40,50,60)}` |
| Wire.NonBlank | lightpack.py:415-415 | the filter keeps exactly the parts that are not blank: none blank, and every non-blank part |
| Wire.NonBlankAppend | lightpack.py:415-415 | the filter keeps order: filtering `a + b` is filtering `a`, then `b` |
| Wire.ReadNumbers | lightpack.py:411-415 | at most `maxsplit + 1` numbers come out of a comma-separated reply |
| Wire.ReadNumbersRoundTrip | lightpack.py:411-415 | numbers written comma-separated read back as themselves |
| Wire.ReadRectangle | lightpack.py:411-415 | a rectangle reply gives at most four integers |
| Wire.RectangleRoundTrip | lightpack.py:411-415 | a rectangle written as four `'%d'` fields reads back as itself |
| Wire.ReadSoundVizColours | lightpack.py:506-519 | the sound-visualisation reply gives two colours of at most three values each |
| Wire.SoundVizPayloadSplits | lightpack.py:849-850 | the `setsoundvizcolors` payload splits at its one `;` into the two colours |
| Wire.SoundVizColoursRoundTrip | lightpack.py:830-850 | the colours `setSoundVizColour` writes read back through `getSoundVizColours`' parsing |
| Lightpack.SendAndExpect | lightpack.py:166-179 | one command is sent; success exactly when the reply equals the expected literal, else `CommandFailedError(command, reply, expected)` |
| Lightpack.SendAndExpectOk | lightpack.py:181-188 | the expected reply is `ok` |
| Lightpack.SendAndExpectSuccess | lightpack.py:190-198 | the expected reply is the command's name before its first colon followed by `:success` |
| Lightpack.ReadReply | lightpack.py:156-164 | a reply yields a value exactly when it has a colon and its payload parses; otherwise a missing payload or a malformed one |
| Lightpack.WithCached | lightpack.py:443-443 | caching a count changes that count and nothing else |
| Lightpack.GetCount | lightpack.py:431-459 | with `fresh` false and a cached count, that count and no command; otherwise one command whose integer is returned and cached |
| Lightpack.CountIsCached | lightpack.py:431-444 | after a successful read, a `fresh=False` read sends nothing and repeats the value, whatever the server now says |
| Lightpack.LedIndex | lightpack.py:77-102 | alias: first map position plus one, or `AliasDoesNotExistError` telling a missing map from a missing alias, never sending. Index: `led + 1`, or `IndexError` when that exceeds the LED count; the count and the client are those of a `fresh=False` count read, so a failed `getcountleds` raises its own error |
| Lightpack.ResolvesStable | lightpack.py:77-102 | a resolution stays valid once the LED count is cached |
| Lightpack.ResolveAll | lightpack.py:218-218 | on success every LED resolves in order in the resulting client; at most one `getcountleds` is sent, none when the count is cached or every LED resolves from the cache |
| Lightpack.ResolveAllCount | lightpack.py:77-102 | resolving changes the client only through `getCountLeds(fresh=False)`: unchanged when nothing is sent, that call's client after `getcountleds`; the command is sent exactly when no count is cached and an index comes before any LED that does not resolve |
| Lightpack.LedIndexAfter | lightpack.py:96-98 | resolving one LED does not change how another resolves, since the count it may cache is the one the server gives |
| Lightpack.ResolveAllResults | lightpack.py:218-218 | the comprehension succeeds exactly when each LED resolves on its own, with each LED's own index, and otherwise raises the error of the first LED that does not |
| Lightpack.GetList | lightpack.py:328-342 | `getDevices`/`getProfiles`: cached list with `fresh` false when one is cached; otherwise the reply's entries, cached, with nothing else in the client changed; a reply without a colon raises and changes nothing |
| Lightpack.GetListReadsServerList | lightpack.py:328-342 | a server list `a;b;...;` is returned as its items |
| Lightpack.FetchLedSizes | lightpack.py:485-491 | one `getleds`; a full read is a non-empty dictionary and is cached; after a reply with a colon the cache holds the snippets read before the first that fails |
| Lightpack.GetLedSizesAsWritten | lightpack.py:473-492 | as written: a fresh client asked with `fresh=False` returns its initial empty list without asking |
| Lightpack.LedSizesNeverFetchedAsWritten | lightpack.py:63-63 | as written, the initial `[]` never equals `{}`, so no `getleds` is sent and nothing is returned, whatever the server holds |
| Lightpack.GetLedSizes | lightpack.py:473-492 | corrected: with `fresh` false, only cached non-empty sizes are returned without a command; otherwise exactly one `getleds` exchange, with its partial cache on failure; on success only the size cache changes |
| Lightpack.LedSizesAreCached | lightpack.py:473-492 | after a successful read, `fresh=False` repeats the sizes without a command |
| Lightpack.GetScreenSize | lightpack.py:400-421 | never raises; a cached size with `fresh` false; otherwise the reply's rectangle, cached, or `None` with the cache unchanged |
| Lightpack.GetMonitorSize | lightpack.py:554-576 | per-monitor cache; sends `getsizemonitor:<n>`; the reply's rectangle is returned and cached for that monitor, nothing else in the client changing; a missing payload gives `None` and leaves the client unchanged; a bad field raises and leaves the client unchanged |
| Lightpack.MonitorSizeReadsServer | lightpack.py:566-576 | a monitor size the server writes as four integers is returned and cached for that monitor |
| Lightpack.ScreenSizeReadsServer | lightpack.py:411-421 | a screen size the server writes as four integers is returned and cached |
| Commands.GateError | lightpack.py:993-1012 | no error exactly when the gate admits the version; below a minimum `CommandNotSupportedError`, above a maximum `CommandDeprecatedError`, each with method, bound and version |
| Commands.Guard | lightpack.py:282-286 | a gated method that does not admit the version raises with no command sent and no state changed |
| Commands.Ask | lightpack.py:360-374 | the plain getters send their one command and return its payload, `None` without a colon; `getPersistence` below 2.2 raises first |
| Commands.Read | lightpack.py:288-302 | `getSmoothness`, `getBrightness` and `getFps` return `int()` of the payload; the first two raise below 1.5 before sending |
| Commands.ReadingReadsServerValue | lightpack.py:344-350 | a reading the server reports as `name:<n>` is `n` |
| Commands.GetGamma | lightpack.py:272-286 | gated at 1.5; sends `getgamma` and yields the payload text exactly when the reply has one |
| Commands.GetSoundVizColours | lightpack.py:494-519 | gated at 2.1; a missing payload raises; otherwise the two colours or `None` |
| Commands.GetSoundVizLiquid | lightpack.py:522-537 | gated at 2.1; `no` for a missing or empty payload, `ok` otherwise |
| Commands.GetColoursFromAll | lightpack.py:236-249 | one `getcolors`, its payload parsed to LED number and colour |
| Commands.GetColoursFromAllReadsServer | lightpack.py:236-249 | a `getcolors` reply written from entries reads as the dictionary of those entries |
| Commands.GetColour | lightpack.py:200-208 | `getcolors` is sent first and the LED is resolved only when it succeeds; the colour is returned exactly when both succeed and the reply lists the LED's wire index, `NoSuchLed` (the `KeyError`) when it does not; either step's error is passed through; the client is the one resolution leaves |
| Commands.GetColours | lightpack.py:211-220 | all LEDs resolve before `getcolors`; once they do, the call succeeds exactly when `getcolors` does and otherwise raises its error; the result holds exactly the reported LEDs among the resolved ones, with their reported colours; the client is the one resolution leaves |
| Commands.WriteLeds | lightpack.py:660-669 | a resolution failure raises before the write; otherwise exactly one `command:` line of the snippets joined by `;` in argument order, succeeding exactly when answered `ok` and otherwise raising `CommandFailedError` with the line, the reply and `ok`; the client is the one resolution leaves |
| Commands.SetColours | lightpack.py:660-669 | a resolution failure raises before the write; otherwise one `setcolor:` line of the colour snippets by wire index, succeeding exactly when answered `ok` and otherwise raising `CommandFailedError` with the line, the reply and `ok`; the client is the one resolution leaves |
| Commands.SetColoursIsWrite | lightpack.py:660-669 | `setColours` is the shared write with `setcolor` and the colours |
| Commands.SetColoursSendsOneCommand | lightpack.py:660-669 | at most one `getcountleds`, then a single `setcolor` line sent last; success only after it |
| Commands.WriteReadsBack | lightpack.py:660-669 | once the LEDs resolve, the snippets of the write joined by `;` parse back to the values keyed by the LEDs' wire indices, a later LED winning |
| Commands.SetColoursPayloadReadsBack | lightpack.py:660-669 | `setColours` sends `setcolor:` and a payload that `getColoursFromAll`'s parsing reads back as the colours keyed by the LEDs' wire indices |
| Commands.SetSizes | lightpack.py:808-817 | a resolution failure raises before the write; otherwise one `setleds:` line of the size snippets by wire index, succeeding exactly when answered `ok` and otherwise raising `CommandFailedError` with the line, the reply and `ok`; the client is the one resolution leaves |
| Commands.SetSizesIsWrite | lightpack.py:808-817 | `setSizes` is the shared write with `setleds` and the rectangles |
| Commands.SetSizesPayloadReadsBack | lightpack.py:808-817 | `setSizes` sends `setleds:` and a payload that `getLedSizes`' parsing reads back as the rectangles keyed by the LEDs' wire indices |
| Commands.AliasIsFirstPosition | lightpack.py:89-91 | an alias's wire index is its first position in the LED map plus one |
| Commands.ResolvesUnique | lightpack.py:77-102 | an LED names at most one wire index |
| Commands.SetColour | lightpack.py:648-657 | the LED's resolution error is raised before anything is written; otherwise `setcolor:` and `_ledColourDef` of its wire index, succeeding exactly on `ok` and otherwise raising `CommandFailedError`; the client is the one resolution leaves |
| Commands.SetSize | lightpack.py:797-806 | the LED's resolution error is raised before anything is written; otherwise `setleds:` and `_ledSizeDef` of its wire index, succeeding exactly on `ok` and otherwise raising `CommandFailedError`; the client is the one resolution leaves |
| Commands.WriteOneLed | lightpack.py:648-657 | a write of one LED is that LED's resolution followed by `command:` and its snippet alone |
| Commands.SetColourSendsDef | lightpack.py:635-657 | `setColour` sends `setcolor:` followed by `_ledColourDef` of the LED |
| Commands.SetSizeSendsDef | lightpack.py:786-806 | `setSize` sends `setleds:` followed by `_ledSizeDef` of the LED |
| Commands.Positions | lightpack.py:679-680 | `range(count)` has `count` LEDs, none for a count that is not positive |
| Commands.SetColourToAll | lightpack.py:672-681 | at most caches the LED count; a failed `getCountLeds(fresh=False)` raises its error and leaves the client unchanged |
| Commands.PositionsResolve | lightpack.py:96-102 | with the count cached, positions `0..count-1` resolve to `1..count` without a command |
| Commands.SetColourToAllCoversEveryLed | lightpack.py:672-681 | after the count, exactly one `setcolor` line with one snippet for every LED `1..count` in order; it succeeds exactly when answered `ok`, otherwise raising `CommandFailedError` with that line, and the client is the one the count read leaves |
| Commands.Apply | lightpack.py:684-957 | each setting sends its one `name:argument` line and needs `ok`; `setDevice` and `setCountLeds` above 1.5, sound-visualisation settings below 2.1 and persistence below 2.2 raise before sending |
| Commands.SettingLineSplits | lightpack.py:684-945 | a setting's line splits back into its command name and argument |
| Commands.NumericSettingReadsBack | lightpack.py:693-712 | smoothness, brightness and LED count are sent as text that `int()` reads back as the number |
| Commands.SoundVizColourReadsBack | lightpack.py:830-850 | the argument `setSoundVizColour` sends parses back as its two colours |
| Commands.Lock | lightpack.py:888-896 | sends `lock`; succeeds exactly on `lock:success`, otherwise raising `CommandFailedError` with `lock`, the reply and `lock:success` |
| Commands.Unlock | lightpack.py:898-902 | sends `unlock`; succeeds exactly on `unlock:success`, otherwise raising `CommandFailedError` with `unlock`, the reply and `unlock:success` |
| Commands.Disconnect | lightpack.py:959-970 | sends `unlock` and never fails: a refusal is swallowed |
| Commands.Connect | lightpack.py:594-633 | no version or one outside [1.4, 2.2] fails before sending; with a key, `apikey:<key>` must be answered `ok`; every failure is `CannotConnectError`; success gives a client with empty caches |
| Commands.ConnectedGates | lightpack.py:22-23 | on a connected client, `setDevice`/`setCountLeds` run only at 1.4 to 1.5, sound visualisation only at 2.1 to 2.2, persistence only at 2.2 |
| Commands.SetColoursExample | lightpack.py:660-669 | with two LEDs known, colouring LEDs 0 and 1 sends exactly `setcolor:1-1,2,3;2-4,5,6` |
| Commands.SoundVizNeedsApi21 | lightpack.py:845-850 | at API 1.5, `setSoundVizColour` raises `CommandNotSupportedError` for 2.1 and sends nothing |

## Left out

- Socket I/O: connecting, `_send`, `_readResult` and closing the connection in `disconnect`. The server is a function from command line to reply line. A server whose reply depends on earlier commands is not modelled, since every reply depends on the command line alone.
- Greeting parsing: the regular expression, the string sort of its matches and the `StrictVersion` parse. `Commands.Connect` takes the parsed version, or none when the greeting matched nothing.
- `getColourAverage`: float division and `round`.
- Commands.GetGamma: returns the payload text, because `float()` parsing is floating point.
- `setGamma`: takes the text that `'%s' % gamma` produces for the float.
- `Colour` objects, converted by the optional `colour` library's `rgb255()`, which is a foreign library; colours are integer triples.
- Strings.Strip: its own contract only bounds the result and its ends. What it keeps, and when it is empty, is stated by Strings.StripTrims.
- Strings.ParseInt: its own contract only says that accepted text is not blank. Which text it accepts is stated by Strings.ParseIntAccepts. The values it reads are stated by Strings.ParseFormatInt, Strings.ParsePadded, Strings.ParsePlus, Strings.ParseIntZeroPadded and Strings.ParseIntNegativeZeroPadded.
- Strings.ParseDigits: its own contract states only which runs it accepts. The value of every accepted run is stated by Strings.ParseDigitsValue; Strings.ParseFormatNat and Strings.ParseLeadingZeros state it for canonical and zero-padded runs.
- Strings.ParseInt: `int()` uses the whitespace set of `strip()`, as Python 2's `int()` of a unicode string does. Python 3's `int()` of an all-ASCII text treats only space and `\t` to `\r` as whitespace, so it raises on a reply padded with U+001C to U+001F where the model reads a number.
- Strings.ParseInt: no limit on the number of digits; Python 3.11 and later refuse more than 4300 digits by default.
- Strings.ParseInt: does not model underscores between digits or non-ASCII digits, which `int()` also accepts. The client only reads numbers the server writes in ASCII.
- Exception message texts; errors carry the fields the exception objects store.
- `NotAuthorizedError`: declared but never raised.
- `getApiVersion`: only formats the stored version as text.
- `host`, `port` and calling methods before `connect`; the model starts from a connected client.
- `setup.py`: packaging metadata.
- Commands.SetColourToAll: its own contract only gives the client and the failed count read. What it sends, its result and its client after a count is read are stated by Commands.SetColourToAllCoversEveryLed.

## Findings

| source | as written | input that shows it | evidently intended | confidence | as-written member | corrected member |
|---|---|---|---|---|---|---|
| lightpack.py:473-492 | `getLedSizes` refreshes only when `fresh` or `self._ledSizes == {}`, but the constructor (line 63) initialises `_ledSizes` to `[]`, which never equals `{}` | a new client calling `getLedSizes(fresh=False)` | with nothing cached, fetch with `getleds` as `getCountLeds` and the list getters do | not executed | Lightpack.GetLedSizesAsWritten, Lightpack.LedSizesNeverFetchedAsWritten | Lightpack.GetLedSizes, Lightpack.LedSizesAreCached |

=== FILE: commands.dfy ===
/**
 * The `Lightpack` methods built on the exchange: version-gated getters and
 * setters, the colour reads, the multi-LED writes that send one command,
 * lock and unlock, and the connect and disconnect handshakes.
 */
module Commands {
  import opened Wrappers
  import opened Strings
  import opened Wire
  import opened Versions
  import opened Lightpack

  /** The API versions a method is available in, and the name its exception reports. */
  datatype Gate =
    | Ungated
    | Since(caller: string, minimum: Version)
    | Until(caller: string, maximum: Version)

  /** Whether a method behind gate `g` may run against API version `v`. */
  predicate Admits(g: Gate, v: Version)
  {
    match g
    case Ungated => true
    case Since(_, minimum) => !Below(v, minimum)
    case Until(_, maximum) => !Below(maximum, v)
  }

  /**
   * The exception a gate raises at version `v`: `CommandNotSupportedError`
   * below a minimum, `CommandDeprecatedError` above a maximum, each with the
   * method's name, the bound and the version.
   */
  function GateError(g: Gate, v: Version): (e: Option<Error>)
    ensures e.None? <==> Admits(g, v)
    ensures g.Since? && e.Some? ==> e.value == CommandNotSupported(g.caller, g.minimum, v)
    ensures g.Until? && e.Some? ==> e.value == CommandDeprecated(g.caller, g.maximum, v)
  {
    match g
    case Ungated => None
    case Since(caller, minimum) =>
      if Below(v, minimum) then Some(CommandNotSupported(caller, minimum, v)) else None
    case Until(caller, maximum) =>
      if Below(maximum, v) then Some(CommandDeprecated(caller, maximum, v)) else None
  }

  /** `body` when the gate admits the client's version; otherwise the gate's exception and no command. */
  function Guard<T>(c: Client, g: Gate, body: Step<T>): (s: Step<T>)
    ensures Admits(g, c.apiVersion) ==> s == body
    ensures !Admits(g, c.apiVersion) ==> s.sent == [] && s.client == c
    ensures !Admits(g, c.apiVersion) ==> s.result == Err(GateError(g, c.apiVersion).value)
  {
    match GateError(g, c.apiVersion)
    case Some(e) => Step([], c, Err(e))
    case None => body
  }

  const V15 := Version(1, 5)
  const V21 := Version(2, 1)
  const V22 := Version(2, 2)

  /** The getters that return a reply's payload as it is. */
  datatype Query = DeviceQuery | ModeQuery | ProfileQuery | StatusQuery | LockStatusQuery | ApiStatusQuery | PersistenceQuery

  /** The command a text query sends. */
  function QueryCommand(q: Query): string
  {
    match q
    case DeviceQuery => "getdevice"
    case ModeQuery => "getmode"
    case ProfileQuery => "getprofile"
    case StatusQuery => "getstatus"
    case LockStatusQuery => "getlockstatus"
    case ApiStatusQuery => "getstatusapi"
    case PersistenceQuery => "getpersistonunlock"
  }

  /** The version gate of a text query: only `getPersistence` has one. */
  function QueryGate(q: Query): Gate
  {
    if q == PersistenceQuery then Since("getPersistence()", V22) else Ungated
  }

  /**
   * `getDevice`, `getMode`, `getProfile`, `getStatus`, `getLockStatus`,
   * `getApiStatus` and `getPersistence`: the payload of the reply, None
   * when the reply has no colon.
   */
  function Ask(c: Client, server: Server, q: Query): (s: Step<Option<string>>)
    ensures s.client == c
    ensures Admits(QueryGate(q), c.apiVersion) ==>
      s.sent == [QueryCommand(q)] && s.result == Ok(Payload(server(QueryCommand(q))))
    ensures !Admits(QueryGate(q), c.apiVersion) ==>
      s.sent == [] && s.result == Err(CommandNotSupported("getPersistence()", V22, c.apiVersion))
  {
    var command := QueryCommand(q);
    Guard(c, QueryGate(q), Step([command], c, Ok(Payload(server(command)))))
  }

  /** The getters that return a reply's payload as an integer. */
  datatype Reading = SmoothnessReading | BrightnessReading | FpsReading

  /** The command an integer reading sends. */
  function ReadingCommand(r: Reading): (command: string)
    ensures ':' !in command
  {
    match r
    case SmoothnessReading => "getsmooth"
    case BrightnessReading => "getbrightness"
    case FpsReading => "getfps"
  }

  /** The version gate of an integer reading. */
  function ReadingGate(r: Reading): Gate
  {
    match r
    case SmoothnessReading => Since("getSmoothness()", V15)
    case BrightnessReading => Since("getBrightness()", V15)
    case FpsReading => Ungated
  }

  /** `getSmoothness`, `getBrightness` and `getFps`: `int()` of the reply's payload. */
  function Read(c: Client, server: Server, r: Reading): (s: Step<int>)
    ensures s.client == c
    ensures Admits(ReadingGate(r), c.apiVersion) ==>
      s.sent == [ReadingCommand(r)] && s.result == ReadReply(server(ReadingCommand(r)), ParseInt)
    ensures !Admits(ReadingGate(r), c.apiVersion) ==>
      s.sent == [] && s.result == Err(GateError(ReadingGate(r), c.apiVersion).value)
  {
    var command := ReadingCommand(r);
    Guard(c, ReadingGate(r), Step([command], c, ReadReply(server(command), ParseInt)))
  }

  /** A reading the server reports as `name:<n>` is `n`. */
  lemma ReadingReadsServerValue(c: Client, server: Server, r: Reading, n: int)
    requires Admits(ReadingGate(r), c.apiVersion)
    requires server(ReadingCommand(r)) == ReadingCommand(r) + ":" + FormatInt(n)
    ensures Read(c, server, r) == Step([ReadingCommand(r)], c, Ok(n))
  {
    var command := ReadingCommand(r);
    assert ReadReply(server(command), ParseInt) == Ok(n) by {
      NameAndPayloadOfLine(command, FormatInt(n));
      ParseFormatInt(n);
    }
  }

  /** A payload read as plain text, which never fails. */
  function Text(payload: string): Option<string>
  {
    Some(payload)
  }

  /** `getGamma` (API 1.5 and later): the payload text `float()` would convert. */
  function GetGamma(c: Client, server: Server): (s: Step<string>)
    ensures s.client == c
    ensures Admits(Since("getGamma()", V15), c.apiVersion) ==>
      s.sent == ["getgamma"] && (s.result.Ok? <==> ':' in server("getgamma"))
    ensures s.result.Ok? ==> Payload(server("getgamma")) == Some(s.result.value)
    ensures !Admits(Since("getGamma()", V15), c.apiVersion) ==>
      s.sent == [] && s.result == Err(CommandNotSupported("getGamma()", V15, c.apiVersion))
  {
    Guard(c, Since("getGamma()", V15), Step(["getgamma"], c, ReadReply(server("getgamma"), Text)))
  }

  /**
   * `getSoundVizColours` (API 2.1 and later): the two colours of the reply,
   * None when there are not two or a value is not an integer.
   */
  function GetSoundVizColours(c: Client, server: Server): (s: Step<Option<(seq<int>, seq<int>)>>)
    ensures s.client == c
    ensures Admits(Since("getSoundVizColours()", V21), c.apiVersion) ==>
      s.sent == ["getsoundvizcolors"] && (s.result.Ok? <==> ':' in server("getsoundvizcolors"))
    ensures s.result.Ok? ==>
      Payload(server("getsoundvizcolors")).Some? &&
      s.result.value == ReadSoundVizColours(Payload(server("getsoundvizcolors")).value)
    ensures !Admits(Since("getSoundVizColours()", V21), c.apiVersion) ==>
      s.sent == [] && s.result == Err(CommandNotSupported("getSoundVizColours()", V21, c.apiVersion))
  {
    var body := match Payload(server("getsoundvizcolors"))
      case None => Step(["getsoundvizcolors"], c, Err(MissingPayload))
      case Some(p) => Step(["getsoundvizcolors"], c, Ok(ReadSoundVizColours(p)));
    Guard(c, Since("getSoundVizColours()", V21), body)
  }

  /**
   * `getSoundVizLiquid` (API 2.1 and later): `ok` when the reply has a
   * non-empty payload, `no` otherwise.
   */
  function GetSoundVizLiquid(c: Client, server: Server): (s: Step<string>)
    ensures s.client == c
    ensures Admits(Since("getSoundVizLiquid()", V21), c.apiVersion) ==>
      s.sent == ["getsoundvizliquid"] &&
      s.result == Ok(if Payload(server("getsoundvizliquid")) in {None, Some("")} then "no" else "ok")
    ensures !Admits(Since("getSoundVizLiquid()", V21), c.apiVersion) ==>
      s.sent == [] && s.result == Err(CommandNotSupported("getSoundVizLiquid()", V21, c.apiVersion))
  {
    var answer := match Payload(server("getsoundvizliquid"))
      case None => "no"
      case Some(p) => if p == "" then "no" else "ok";
    Guard(c, Since("getSoundVizLiquid()", V21), Step(["getsoundvizliquid"], c, Ok(answer)))
  }

  /** `getColoursFromAll`: one `getcolors` exchange, its payload read into LED number to colour. */
  function GetColoursFromAll(c: Client, server: Server): (s: Step<map<int, seq<int>>>)
    ensures s.sent == ["getcolors"] && s.client == c
    ensures s.result == ReadReply(server("getcolors"), ParseColours)
  {
    Step(["getcolors"], c, ReadReply(server("getcolors"), ParseColours))
  }

  /** A `getcolors` reply listing LEDs as `index-r,g,b;...;` reads as the dictionary of those LEDs. */
  lemma GetColoursFromAllReadsServer(c: Client, server: Server, entries: seq<(int, seq<int>)>, trailing: nat)
    requires 1 <= |entries|
    requires forall i :: 0 <= i < |entries| ==> entries[i].0 >= 0 && 1 <= |entries[i].1| <= 3
    requires server("getcolors") == "getcolors:" + Join(Snippets(entries), ';') + Repeat(';', trailing)
    ensures GetColoursFromAll(c, server) == Step(["getcolors"], c, Ok(ToMap(entries)))
  {
    var payload := Join(Snippets(entries), ';') + Repeat(';', trailing);
    assert server("getcolors") == "getcolors" + ":" + payload;
    NameAndPayloadOfLine("getcolors", payload);
    LedListRoundTrip(entries, 2, trailing);
  }

  /**
   * `getColour`: all colours are read first, then the LED is resolved; the
   * colour reported for its wire index, `NoSuchLed` when there is none.
   */
  function GetColour(c: Client, server: Server, led: Led): (s: Step<seq<int>>)
    ensures var all := GetColoursFromAll(c, server).result; var index := LedIndex(c, server, led);
      s.sent == ["getcolors"] + (if all.Ok? then index.sent else [])
    ensures var all := GetColoursFromAll(c, server).result; var index := LedIndex(c, server, led);
      s.client == (if all.Err? then c else index.client)
    ensures var all := GetColoursFromAll(c, server).result; var index := LedIndex(c, server, led).result;
      && (all.Err? ==> s.result == Err(all.error))
      && (all.Ok? && index.Err? ==> s.result == Err(index.error))
      && (all.Ok? && index.Ok? && index.value !in all.value ==> s.result == Err(NoSuchLed(index.value)))
    ensures var all := GetColoursFromAll(c, server).result;
      var index := LedIndex(c, server, led).result;
      s.result.Ok? <==> all.Ok? && index.Ok? && index.value in all.value
    ensures var all := GetColoursFromAll(c, server).result;
      var index := LedIndex(c, server, led).result;
      s.result.Ok? ==> Resolves(s.client, led, index.value) && s.result.value == all.value[index.value]
  {
    var all := GetColoursFromAll(c, server);
    match all.result
    case Err(e) => Step(all.sent, c, Err(e))
    case Ok(colours) =>
      var index := LedIndex(c, server, led);
      match index.result
      case Err(e) => Step(all.sent + index.sent, index.client, Err(e))
      case Ok(i) =>
        if i in colours then Step(all.sent + index.sent, index.client, Ok(colours[i]))
        else Step(all.sent + index.sent, index.client, Err(NoSuchLed(i)))
  }

  /**
   * `getColours`: every LED is resolved, then all colours are read once;
   * the reported colours of exactly the resolved wire indices.
   */
  function GetColours(c: Client, server: Server, leds: seq<Led>): (s: Step<map<int, seq<int>>>)
    ensures var ids := ResolveAll(c, server, leds);
      ids.result.Err? ==> s.sent == ids.sent && s.result == Err(ids.result.error)
    ensures var ids := ResolveAll(c, server, leds);
      ids.result.Ok? ==> s.sent == ids.sent + ["getcolors"]
    ensures var ids := ResolveAll(c, server, leds); var all := GetColoursFromAll(c, server).result;
      s.result.Ok? ==> (ids.result.Ok? && all.Ok? &&
        (forall k :: k in s.result.value <==> k in all.value && k in ids.result.value) &&
        (forall k :: k in s.result.value ==> s.result.value[k] == all.value[k]))
    ensures var ids := ResolveAll(c, server, leds); var all := GetColoursFromAll(c, server).result;
      ids.result.Ok? ==> (s.result.Ok? <==> all.Ok?) && (all.Err? ==> s.result == Err(all.error))
    ensures s.client == ResolveAll(c, server, leds).client
  {
    var ids := ResolveAll(c, server, leds);
    match ids.result
    case Err(e) => Step(ids.sent, ids.client, Err(e))
    case Ok(indices) =>
      var all := GetColoursFromAll(ids.client, server);
      match all.result
      case Err(e) => Step(ids.sent + all.sent, ids.client, Err(e))
      case Ok(colours) =>
        Step(ids.sent + all.sent, ids.client, Ok(map k | k in colours && k in indices :: colours[k]))
  }

  /** Each wire index paired with the values written for it. */
  function Pair(indices: seq<int>, values: seq<seq<int>>): (entries: seq<(int, seq<int>)>)
    requires |indices| == |values|
  {
    seq(|indices|, i requires 0 <= i < |indices| => (indices[i], values[i]))
  }

  /**
   * The body shared by `setColours` and `setSizes`: every LED resolved in
   * order (an unresolvable LED raises before anything is written), then one
   * `command:` line of the LEDs' snippets joined by `;`, which must be
   * answered `ok`.
   */
  function WriteLeds(c: Client, server: Server, command: string, leds: seq<Led>, values: seq<seq<int>>): (s: Step<()>)
    requires |leds| == |values|
    ensures var ids := ResolveAll(c, server, leds);
      ids.result.Err? ==> s.sent == ids.sent && s.result == Err(ids.result.error)
    ensures var ids := ResolveAll(c, server, leds);
      ids.result.Ok? ==>
        var line := command + ":" + Join(Snippets(Pair(ids.result.value, values)), ';');
        && s.sent == ids.sent + [line]
        && (s.result.Ok? <==> server(line) == "ok")
        && (s.result.Err? ==> s.result.error == CommandFailed(line, server(line), "ok"))
    ensures s.client == ResolveAll(c, server, leds).client
    ensures Extends(s.client, c)
  {
    var ids := ResolveAll(c, server, leds);
    match ids.result
    case Err(e) => Step(ids.sent, ids.client, Err(e))
    case Ok(indices) =>
      var line := command + ":" + Join(Snippets(Pair(indices, values)), ';');
      var w := SendAndExpectOk(ids.client, server, line);
      Step(ids.sent + w.sent, w.client, w.result)
  }

  /** The LEDs of (LED, value) pairs, in order. */
  function LedsOf<T>(pairs: seq<(Led, T)>): (leds: seq<Led>)
  {
    seq(|pairs|, i requires 0 <= i < |pairs| => pairs[i].0)
  }

  /** The colour fields of (LED, colour) pairs, in order. */
  function ColourValues(pairs: seq<(Led, Rgb)>): seq<seq<int>>
  {
    seq(|pairs|, i requires 0 <= i < |pairs| => RgbFields(pairs[i].1))
  }

  /** The rectangle fields of (LED, rectangle) pairs, in order. */
  function RectValues(pairs: seq<(Led, Rect)>): seq<seq<int>>
  {
    seq(|pairs|, i requires 0 <= i < |pairs| => RectFields(pairs[i].1))
  }

  /** `setColours`: the colours of several LEDs in a single `setcolor` command. */
  function SetColours(c: Client, server: Server, pairs: seq<(Led, Rgb)>): (s: Step<()>)
    ensures Extends(s.client, c)
    ensures var ids := ResolveAll(c, server, LedsOf(pairs));
      && s.client == ids.client
      && (ids.result.Err? ==> s.sent == ids.sent && s.result == Err(ids.result.error))
    ensures var ids := ResolveAll(c, server, LedsOf(pairs));
      ids.result.Ok? ==>
        var line := "setcolor:" + Join(Snippets(Pair(ids.result.value, ColourValues(pairs))), ';');
        && s.sent == ids.sent + [line]
        && (s.result.Ok? <==> server(line) == "ok")
        && (s.result.Err? ==> s.result.error == CommandFailed(line, server(line), "ok"))
  {
    assert "setcolor:" == "setcolor" + ":";
    WriteLeds(c, server, "setcolor", LedsOf(pairs), ColourValues(pairs))
  }

  /** `setColours` is the shared write, with `setcolor` and the colours' fields. */
  lemma SetColoursIsWrite(c: Client, server: Server, pairs: seq<(Led, Rgb)>)
    ensures SetColours(c, server, pairs) == WriteLeds(c, server, "setcolor", LedsOf(pairs), ColourValues(pairs))
  {
  }

  /** The commands a write sends: at most a `getcountleds`, then the write itself unless resolution failed. */
  predicate OneWrite(sent: seq<string>, command: string)
  {
    sent == [] || sent == ["getcountleds"] ||
    (Name(sent[|sent| - 1]) == command && (|sent| == 1 || sent == ["getcountleds", sent[1]]))
  }

  /**
   * However many LEDs it names, `setColours` sends one `setcolor` command,
   * last, after at most one `getcountleds`; it succeeds only after sending it.
   */
  lemma SetColoursSendsOneCommand(c: Client, server: Server, pairs: seq<(Led, Rgb)>)
    ensures OneWrite(SetColours(c, server, pairs).sent, "setcolor")
    ensures var s := SetColours(c, server, pairs);
      s.result.Ok? ==> |s.sent| >= 1 && Name(s.sent[|s.sent| - 1]) == "setcolor"
  {
    assert ':' !in "setcolor";
    WriteSendsOneCommand(c, server, "setcolor", LedsOf(pairs), ColourValues(pairs));
  }

  /** A write sends its command last, after at most one `getcountleds`. */
  lemma WriteSendsOneCommand(c: Client, server: Server, command: string, leds: seq<Led>, values: seq<seq<int>>)
    requires ':' !in command && |leds| == |values|
    ensures OneWrite(WriteLeds(c, server, command, leds, values).sent, command)
    ensures var s := WriteLeds(c, server, command, leds, values);
      s.result.Ok? ==> |s.sent| >= 1 && Name(s.sent[|s.sent| - 1]) == command
  {
    var ids := ResolveAll(c, server, leds);
    if ids.result.Ok? {
      var payload := Join(Snippets(Pair(ids.result.value, values)), ';');
      NameAndPayloadOfLine(command, payload);
    }
  }

  /**
   * The payload of a write that got past resolution parses back to the
   * written values keyed by the LEDs' wire indices, a later LED overriding
   * an earlier one, when no LED lies below position -1.
   */
  lemma WriteReadsBack(c: Client, server: Server, leds: seq<Led>, values: seq<seq<int>>, maxsplit: nat)
    requires 1 <= |leds| == |values|
    requires forall i :: 0 <= i < |leds| && leds[i].Position? ==> leds[i].index >= -1
    requires forall i :: 0 <= i < |values| ==> 1 <= |values[i]| <= maxsplit + 1
    requires ResolveAll(c, server, leds).result.Ok?
    ensures var entries := Pair(ResolveAll(c, server, leds).result.value, values);
      ParseLedList(Join(Snippets(entries), ';'), maxsplit) == Some(ToMap(entries))
  {
    var ids := ResolveAll(c, server, leds);
    var indices := ids.result.value;
    var entries := Pair(indices, values);
    forall i | 0 <= i < |entries|
      ensures entries[i].0 >= 0 && 1 <= |entries[i].1| <= maxsplit + 1
    {
      assert Resolves(ids.client, leds[i], indices[i]);
    }
    var payload := Join(Snippets(entries), ';');
    LedListRoundTrip(entries, maxsplit, 0);
    assert payload + Repeat(';', 0) == payload;
  }

  /**
   * What `setColours` writes is what `getColoursFromAll` would read: its
   * `setcolor` line carries a payload that parses back to the colours
   * keyed by the LEDs' wire indices.
   */
  lemma SetColoursPayloadReadsBack(c: Client, server: Server, pairs: seq<(Led, Rgb)>)
    requires 1 <= |pairs|
    requires forall i :: 0 <= i < |pairs| && pairs[i].0.Position? ==> pairs[i].0.index >= -1
    requires ResolveAll(c, server, LedsOf(pairs)).result.Ok?
    ensures var ids := ResolveAll(c, server, LedsOf(pairs));
      var entries := Pair(ids.result.value, ColourValues(pairs));
      var payload := Join(Snippets(entries), ';');
      SetColours(c, server, pairs).sent == ids.sent + ["setcolor:" + payload] &&
      ParseColours(payload) == Some(ToMap(entries))
  {
    SetColoursSendsPayload(c, server, pairs);
    SetColoursPayloadParses(c, server, pairs);
  }

  /** After the LEDs resolve, `setColours` sends `setcolor:` and the joined snippets. */
  lemma SetColoursSendsPayload(c: Client, server: Server, pairs: seq<(Led, Rgb)>)
    ensures var ids := ResolveAll(c, server, LedsOf(pairs));
      ids.result.Ok? ==>
      SetColours(c, server, pairs).sent == ids.sent + ["setcolor:" + Join(Snippets(Pair(ids.result.value, ColourValues(pairs))), ';')]
  {
    assert "setcolor:" == "setcolor" + ":";
  }

  /** The joined `setcolor` snippets parse back to the colours by wire index. */
  lemma SetColoursPayloadParses(c: Client, server: Server, pairs: seq<(Led, Rgb)>)
    requires 1 <= |pairs|
    requires forall i :: 0 <= i < |pairs| && pairs[i].0.Position? ==> pairs[i].0.index >= -1
    requires ResolveAll(c, server, LedsOf(pairs)).result.Ok?
    ensures var entries := Pair(ResolveAll(c, server, LedsOf(pairs)).result.value, ColourValues(pairs));
      ParseColours(Join(Snippets(entries), ';')) == Some(ToMap(entries))
  {
    var leds, values := LedsOf(pairs), ColourValues(pairs);
    assert forall i :: 0 <= i < |values| ==> |values[i]| == 3;
    assert forall i :: 0 <= i < |leds| ==> leds[i] == pairs[i].0;
    WriteReadsBack(c, server, leds, values, 2);
  }

  /**
   * What `setSizes` writes is what `getLedSizes` would read: its `setleds`
   * line carries a payload that parses back to the rectangles keyed by the
   * LEDs' wire indices.
   */
  lemma SetSizesPayloadReadsBack(c: Client, server: Server, pairs: seq<(Led, Rect)>)
    requires 1 <= |pairs|
    requires forall i :: 0 <= i < |pairs| && pairs[i].0.Position? ==> pairs[i].0.index >= -1
    requires ResolveAll(c, server, LedsOf(pairs)).result.Ok?
    ensures var ids := ResolveAll(c, server, LedsOf(pairs));
      var entries := Pair(ids.result.value, RectValues(pairs));
      var payload := Join(Snippets(entries), ';');
      SetSizes(c, server, pairs).sent == ids.sent + ["setleds:" + payload] &&
      ParseLedSizes(payload) == Some(ToMap(entries))
  {
    SetSizesSendsPayload(c, server, pairs);
    SetSizesPayloadParses(c, server, pairs);
  }

  /** After the LEDs resolve, `setSizes` sends `setleds:` and the joined snippets. */
  lemma SetSizesSendsPayload(c: Client, server: Server, pairs: seq<(Led, Rect)>)
    ensures var ids := ResolveAll(c, server, LedsOf(pairs));
      ids.result.Ok? ==>
      SetSizes(c, server, pairs).sent == ids.sent + ["setleds:" + Join(Snippets(Pair(ids.result.value, RectValues(pairs))), ';')]
  {
    assert "setleds:" == "setleds" + ":";
  }

  /** The joined `setleds` snippets parse back to the rectangles by wire index. */
  lemma SetSizesPayloadParses(c: Client, server: Server, pairs: seq<(Led, Rect)>)
    requires 1 <= |pairs|
    requires forall i :: 0 <= i < |pairs| && pairs[i].0.Position? ==> pairs[i].0.index >= -1
    requires ResolveAll(c, server, LedsOf(pairs)).result.Ok?
    ensures var entries := Pair(ResolveAll(c, server, LedsOf(pairs)).result.value, RectValues(pairs));
      ParseLedSizes(Join(Snippets(entries), ';')) == Some(ToMap(entries))
  {
    var leds, values := LedsOf(pairs), RectValues(pairs);
    assert forall i :: 0 <= i < |values| ==> |values[i]| == 4;
    assert forall i :: 0 <= i < |leds| ==> leds[i] == pairs[i].0;
    WriteReadsBack(c, server, leds, values, 3);
  }

  /**
   * `setColour`: the LED resolved, then `setcolor:` and `_ledColourDef` of
   * its wire index, which must be answered `ok`; the same command
   * `setColours` sends for a single LED.
   */
  function SetColour(c: Client, server: Server, led: Led, rgb: Rgb): (s: Step<()>)
    ensures var one := LedIndex(c, server, led);
      && s.client == one.client
      && (one.result.Err? ==> s.sent == one.sent && s.result == Err(one.result.error))
    ensures var one := LedIndex(c, server, led);
      one.result.Ok? ==>
        var line := "setcolor:" + LedColourDef(one.result.value, rgb);
        && s.sent == one.sent + [line]
        && (s.result.Ok? <==> server(line) == "ok")
        && (s.result.Err? ==> s.result.error == CommandFailed(line, server(line), "ok"))
  {
    assert LedsOf([(led, rgb)]) == [led];
    assert ColourValues([(led, rgb)]) == [RgbFields(rgb)];
    WriteOneLed(c, server, "setcolor", led, RgbFields(rgb));
    assert "setcolor:" == "setcolor" + ":";
    SetColours(c, server, [(led, rgb)])
  }

  /** `setSizes`: the rectangles of several LEDs in a single `setleds` command. */
  function SetSizes(c: Client, server: Server, pairs: seq<(Led, Rect)>): (s: Step<()>)
    ensures Extends(s.client, c)
    ensures var ids := ResolveAll(c, server, LedsOf(pairs));
      && s.client == ids.client
      && (ids.result.Err? ==> s.sent == ids.sent && s.result == Err(ids.result.error))
    ensures var ids := ResolveAll(c, server, LedsOf(pairs));
      ids.result.Ok? ==>
        var line := "setleds:" + Join(Snippets(Pair(ids.result.value, RectValues(pairs))), ';');
        && s.sent == ids.sent + [line]
        && (s.result.Ok? <==> server(line) == "ok")
        && (s.result.Err? ==> s.result.error == CommandFailed(line, server(line), "ok"))
  {
    assert "setleds:" == "setleds" + ":";
    WriteLeds(c, server, "setleds", LedsOf(pairs), RectValues(pairs))
  }

  /** `setSizes` is the shared write, with `setleds` and the rectangles' fields. */
  lemma SetSizesIsWrite(c: Client, server: Server, pairs: seq<(Led, Rect)>)
    ensures SetSizes(c, server, pairs) == WriteLeds(c, server, "setleds", LedsOf(pairs), RectValues(pairs))
  {
  }

  /**
   * `setSize`: the LED resolved, then `setleds:` and `_ledSizeDef` of its
   * wire index, which must be answered `ok`; the same command `setSizes`
   * sends for a single LED.
   */
  function SetSize(c: Client, server: Server, led: Led, rect: Rect): (s: Step<()>)
    ensures var one := LedIndex(c, server, led);
      && s.client == one.client
      && (one.result.Err? ==> s.sent == one.sent && s.result == Err(one.result.error))
    ensures var one := LedIndex(c, server, led);
      one.result.Ok? ==>
        var line := "setleds:" + LedSizeDef(one.result.value, rect);
        && s.sent == one.sent + [line]
        && (s.result.Ok? <==> server(line) == "ok")
        && (s.result.Err? ==> s.result.error == CommandFailed(line, server(line), "ok"))
  {
    assert LedsOf([(led, rect)]) == [led];
    assert RectValues([(led, rect)]) == [RectFields(rect)];
    WriteOneLed(c, server, "setleds", led, RectFields(rect));
    assert "setleds:" == "setleds" + ":";
    SetSizes(c, server, [(led, rect)])
  }

  /** A write of one LED: that LED resolved, then `command:` and its snippet alone. */
  lemma WriteOneLed(c: Client, server: Server, command: string, led: Led, values: seq<int>)
    ensures var one := LedIndex(c, server, led);
      var s := WriteLeds(c, server, command, [led], [values]);
      && s.client == one.client
      && (one.result.Err? ==> s.sent == one.sent && s.result == Err(one.result.error))
      && (one.result.Ok? ==>
        var line := command + ":" + Snippet(one.result.value, values);
        && s.sent == one.sent + [line]
        && (s.result.Ok? <==> server(line) == "ok")
        && (s.result.Err? ==> s.result.error == CommandFailed(line, server(line), "ok")))
  {
    var one := LedIndex(c, server, led);
    var ids := ResolveAll(c, server, [led]);
    assert [led][0] == led && [led][1..] == [];
    assert ResolveAll(one.client, server, []) == Step([], one.client, Ok([]));
    assert ids.client == one.client && ids.sent == one.sent + [];
    if one.result.Ok? {
      var index := one.result.value;
      assert ids.result == Ok([index] + []);
      assert Pair([index], [values]) == [(index, values)];
      assert Snippets([(index, values)]) == [Snippet(index, values)];
    }
  }

  /** The wire index an alias resolves to is its first position in the LED map, plus one. */
  lemma AliasIsFirstPosition(c: Client, led: Led, i: int)
    requires led.Alias? && Resolves(c, led, i)
    ensures IndexOf(c.ledMap.value, led.name) == Some(i - 1)
  {
    var m := c.ledMap.value;
    assert m == m[..i - 1] + [led.name] + m[i..];
    IndexOfAfter(m[..i - 1], led.name, m[i..]);
  }

  /** An LED names one wire index at most, before and after a count is cached. */
  lemma ResolvesUnique(c: Client, c': Client, led: Led, i: int, j: int)
    requires Extends(c', c) && Resolves(c, led, i) && Resolves(c', led, j)
    ensures i == j
  {
    if led.Alias? {
      AliasIsFirstPosition(c, led, i);
      AliasIsFirstPosition(c', led, j);
    }
  }

  /** `setColour` on an LED that resolves without a command sends `setcolor:` and `_ledColourDef` of it. */
  lemma SetColourSendsDef(c: Client, server: Server, led: Led, rgb: Rgb, index: int)
    requires Resolvable(c, led) && Resolves(c, led, index)
    ensures SetColour(c, server, led, rgb).sent == ["setcolor:" + LedColourDef(index, rgb)]
  {
    ResolvedAlone(c, server, led, index);
  }

  /** `setSize` on an LED that resolves without a command sends `setleds:` and `_ledSizeDef` of it. */
  lemma SetSizeSendsDef(c: Client, server: Server, led: Led, rect: Rect, index: int)
    requires Resolvable(c, led) && Resolves(c, led, index)
    ensures SetSize(c, server, led, rect).sent == ["setleds:" + LedSizeDef(index, rect)]
  {
    ResolvedAlone(c, server, led, index);
  }

  /** An LED that resolves in `c` is looked up without a command, to its one wire index. */
  lemma ResolvedAlone(c: Client, server: Server, led: Led, index: int)
    requires Resolvable(c, led) && Resolves(c, led, index)
    ensures LedIndex(c, server, led) == Step([], c, Ok(index))
  {
    var one := LedIndex(c, server, led);
    assert one.sent == [] && one.client == c && one.result.Ok?;
    ResolvesUnique(c, c, led, index, one.result.value);
  }

  /** LEDs `0 .. count - 1` by position: `range(count)`. */
  function Positions(count: int): (leds: seq<Led>)
    ensures |leds| == if count > 0 then count else 0
  {
    seq(if count > 0 then count else 0, i => Position(i))
  }

  /** The wire indices `1 .. count`. */
  function Ordinals(count: nat): seq<int>
  {
    seq(count, i => i + 1)
  }

  /** `n` copies of the same values. */
  function Uniform(n: nat, values: seq<int>): seq<seq<int>>
  {
    seq(n, _ => values)
  }

  /** The snippets giving LEDs `1 .. count` the colour `rgb`. */
  function ColourAllDefs(count: nat, rgb: Rgb): seq<string>
  {
    seq(count, i => LedColourDef(i + 1, rgb))
  }

  /**
   * `setColourToAll`: the LED count (cached when known), then one
   * `setcolor` command giving every LED from 1 to the count the colour.
   */
  function SetColourToAll(c: Client, server: Server, rgb: Rgb): (s: Step<()>)
    ensures Extends(s.client, c)
    ensures var n := GetCount(c, server, LedCount, false);
      n.result.Err? ==> s == Step(n.sent, c, Err(n.result.error))
  {
    var n := GetCount(c, server, LedCount, false);
    match n.result
    case Err(e) => Step(n.sent, n.client, Err(e))
    case Ok(count) =>
      var leds := Positions(count);
      var w := WriteLeds(n.client, server, "setcolor", leds, Uniform(|leds|, RgbFields(rgb)));
      Step(n.sent + w.sent, w.client, w.result)
  }

  /** With `count` LEDs known, positions `0 .. count - 1` resolve to wire indices `1 .. count` without a command. */
  lemma PositionsResolve(c: Client, server: Server, count: nat)
    requires c.countLeds.Some? && (count == 0 || count <= c.countLeds.value)
    ensures var ids := ResolveAll(c, server, Positions(count));
      ids.sent == [] && ids.result == Ok(Ordinals(count))
  {
    var leds := Positions(count);
    forall i | 0 <= i < |leds|
      ensures Resolvable(c, leds[i])
    {
    }
    var ids := ResolveAll(c, server, leds);
    forall i | 0 <= i < count
      ensures ids.result.value[i] == i + 1
    {
      assert Resolves(ids.client, leds[i], ids.result.value[i]);
    }
    assert ids.result.value == Ordinals(count);
  }

  /** The snippets of one colour for LEDs `1 .. count` are `ColourAllDefs`. */
  lemma UniformSnippets(count: nat, rgb: Rgb)
    ensures Snippets(Pair(Ordinals(count), Uniform(count, RgbFields(rgb)))) == ColourAllDefs(count, rgb)
  {
  }

  /**
   * `setColourToAll` sends, after the count, exactly
   * `setcolor:1-r,g,b;2-r,g,b;...;count-r,g,b`, and for a count that is
   * not positive an empty `setcolor:`.
   */
  lemma SetColourToAllCoversEveryLed(c: Client, server: Server, rgb: Rgb)
    ensures var n := GetCount(c, server, LedCount, false);
      n.result.Ok? ==>
        var count := if n.result.value > 0 then n.result.value else 0;
        var line := "setcolor:" + Join(ColourAllDefs(count, rgb), ';');
        var s := SetColourToAll(c, server, rgb);
        && s.sent == n.sent + [line]
        && s.client == n.client
        && (s.result.Ok? <==> server(line) == "ok")
        && (s.result.Err? ==> s.result.error == CommandFailed(line, server(line), "ok"))
  {
    var n := GetCount(c, server, LedCount, false);
    if n.result.Ok? {
      var count := if n.result.value > 0 then n.result.value else 0;
      var w := WriteLeds(n.client, server, "setcolor", Positions(count), Uniform(count, RgbFields(rgb)));
      assert SetColourToAll(c, server, rgb) == Step(n.sent + w.sent, w.client, w.result) by {
        assert Positions(n.result.value) == Positions(count);
      }
      ColourAllPositions(n.client, server, count, rgb);
    }
  }

  /**
   * With the LED count known, colouring positions `0 .. count - 1` sends
   * just the line of `ColourAllDefs` and keeps the client.
   */
  lemma ColourAllPositions(c: Client, server: Server, count: nat, rgb: Rgb)
    requires c.countLeds.Some? && (count == 0 || count <= c.countLeds.value)
    ensures var w := WriteLeds(c, server, "setcolor", Positions(count), Uniform(count, RgbFields(rgb)));
      var line := "setcolor:" + Join(ColourAllDefs(count, rgb), ';');
      && w.sent == [line]
      && w.client == c
      && (w.result.Ok? <==> server(line) == "ok")
      && (w.result.Err? ==> w.result.error == CommandFailed(line, server(line), "ok"))
  {
    var values := Uniform(count, RgbFields(rgb));
    PositionsResolve(c, server, count);
    ResolveAllCount(c, server, Positions(count));
    UniformSnippets(count, rgb);
    assert "setcolor:" == "setcolor" + ":";
  }

  /** The write commands that configure the device, one `name:argument` line each. */
  datatype Setting =
    | SetGamma(gamma: string)
    | SetSmoothness(smoothness: int)
    | SetBrightness(brightness: int)
    | SetDevice(device: string)
    | SetMode(mode: string)
    | SetProfile(profile: string)
    | AddProfile(profile: string)
    | DeleteProfile(profile: string)
    | SetCountLeds(count: int)
    | SetSoundVizColour(low: Rgb, high: Rgb)
    | SetSoundVizLiquid(liquid: bool)
    | SetSession(key: string)
    | SetPersistence(persist: bool)
    | SetStatus(on: bool)

  /** The command name a setter sends. */
  function SettingName(setting: Setting): (name: string)
    ensures ':' !in name
  {
    match setting
    case SetGamma(_) => "setgamma"
    case SetSmoothness(_) => "setsmooth"
    case SetBrightness(_) => "setbrightness"
    case SetDevice(_) => "setdevice"
    case SetMode(_) => "setmode"
    case SetProfile(_) => "setprofile"
    case AddProfile(_) => "newprofile"
    case DeleteProfile(_) => "deleteprofile"
    case SetCountLeds(_) => "setcountleds"
    case SetSoundVizColour(_, _) => "setsoundvizcolors"
    case SetSoundVizLiquid(_) => "setsoundvizliquid"
    case SetSession(_) => "guid"
    case SetPersistence(_) => "setpersistonunlock"
    case SetStatus(_) => "setstatus"
  }

  /** A boolean as the words the API uses. */
  function OnOff(on: bool): string
  {
    if on then "on" else "off"
  }

  /** The argument a setter sends after the colon. */
  function SettingArgument(setting: Setting): string
  {
    match setting
    case SetGamma(gamma) => gamma
    case SetSmoothness(smoothness) => FormatInt(smoothness)
    case SetBrightness(brightness) => FormatInt(brightness)
    case SetDevice(device) => device
    case SetMode(mode) => mode
    case SetProfile(profile) => profile
    case AddProfile(profile) => profile
    case DeleteProfile(profile) => profile
    case SetCountLeds(count) => FormatInt(count)
    case SetSoundVizColour(low, high) => ColourDef(low) + ";" + ColourDef(high)
    case SetSoundVizLiquid(liquid) => OnOff(liquid)
    case SetSession(key) => key
    case SetPersistence(persist) => OnOff(persist)
    case SetStatus(on) => OnOff(on)
  }

  /** The version bound of a setting, under the method name its exception reports. */
  function SettingGate(setting: Setting): Gate
  {
    match setting
    case SetDevice(_) => Until("setDevice()", V15)
    case SetCountLeds(_) => Until("setCountLeds()", V15)
    case SetSoundVizColour(_, _) => Since("setSoundVizColour()", V21)
    case SetSoundVizLiquid(_) => Since("setSoundVizLiquid()", V21)
    case SetPersistence(persist) =>
      Since(if persist then "enablePersistence()" else "disablePersistence()", V22)
    case _ => Ungated
  }

  /** The whole line a setter sends. */
  function SettingLine(setting: Setting): string
  {
    SettingName(setting) + ":" + SettingArgument(setting)
  }

  /**
   * `setGamma`, `setSmoothness`, `setBrightness`, `setDevice`, `setMode`,
   * `setProfile`, `addProfile`, `deleteProfile`, `setCountLeds`,
   * `setSoundVizColour`, `enableSoundVizLiquid`, `disableSoundVizLiquid`,
   * `setSession`, `persist`, `unpersist`, `turnOn` and `turnOff`: after the
   * version check, the setting's line, which must be answered `ok`.
   */
  function Apply(c: Client, server: Server, setting: Setting): (s: Step<()>)
    ensures s.client == c
    ensures Admits(SettingGate(setting), c.apiVersion) ==>
      s.sent == [SettingLine(setting)] &&
      (s.result.Ok? <==> server(SettingLine(setting)) == "ok") &&
      (s.result.Err? ==> s.result.error == CommandFailed(SettingLine(setting), server(SettingLine(setting)), "ok"))
    ensures !Admits(SettingGate(setting), c.apiVersion) ==>
      s.sent == [] && s.result == Err(GateError(SettingGate(setting), c.apiVersion).value)
  {
    Guard(c, SettingGate(setting), SendAndExpectOk(c, server, SettingLine(setting)))
  }

  /** A setting's line names its command and carries its argument, whatever the argument holds. */
  lemma SettingLineSplits(setting: Setting)
    ensures Name(SettingLine(setting)) == SettingName(setting)
    ensures Payload(SettingLine(setting)) == Some(SettingArgument(setting))
  {
    NameAndPayloadOfLine(SettingName(setting), SettingArgument(setting));
  }

  /** `setSmoothness`, `setBrightness` and `setCountLeds` send a number the device reads back as that number. */
  lemma NumericSettingReadsBack(setting: Setting)
    requires setting.SetSmoothness? || setting.SetBrightness? || setting.SetCountLeds?
    ensures Payload(SettingLine(setting)).Some?
    ensures ParseInt(Payload(SettingLine(setting)).value) ==
      Some(match setting
        case SetSmoothness(v) => v
        case SetBrightness(v) => v
        case SetCountLeds(v) => v
        case _ => 0)
  {
    SettingLineSplits(setting);
    match setting
    case SetSmoothness(v) => ParseFormatInt(v);
    case SetBrightness(v) => ParseFormatInt(v);
    case SetCountLeds(v) => ParseFormatInt(v);
  }

  /** The two colours `setSoundVizColour` sends are the two `getSoundVizColours` reads. */
  lemma SoundVizColourReadsBack(low: Rgb, high: Rgb)
    ensures ReadSoundVizColours(SettingArgument(SetSoundVizColour(low, high))) ==
      Some((RgbFields(low), RgbFields(high)))
  {
    assert SettingArgument(SetSoundVizColour(low, high)) == ColourDef(low) + ";" + ColourDef(high);
    SoundVizColoursRoundTrip(low, high);
  }

  /** `lock`: the `lock` command, answered `lock:success`. */
  function Lock(c: Client, server: Server): (s: Step<()>)
    ensures s.sent == ["lock"] && s.client == c
    ensures s.result.Ok? <==> server("lock") == "lock" + ":success"
    ensures s.result.Err? ==> s.result.error == CommandFailed("lock", server("lock"), "lock" + ":success")
  {
    assert ':' !in "lock";
    SendAndExpectSuccess(c, server, "lock")
  }

  /** `unlock`: the `unlock` command, answered `unlock:success`. */
  function Unlock(c: Client, server: Server): (s: Step<()>)
    ensures s.sent == ["unlock"] && s.client == c
    ensures s.result.Ok? <==> server("unlock") == "unlock" + ":success"
    ensures s.result.Err? ==> s.result.error == CommandFailed("unlock", server("unlock"), "unlock" + ":success")
  {
    assert ':' !in "unlock";
    SendAndExpectSuccess(c, server, "unlock")
  }

  /** `disconnect`: unlocks, ignoring a refusal, so it never fails. */
  function Disconnect(c: Client, server: Server): (s: Step<()>)
    ensures s.sent == ["unlock"] && s.client == c && s.result == Ok(())
  {
    var u := Unlock(c, server);
    match u.result
    case Err(CommandFailed(_, _, _)) => Step(u.sent, u.client, Ok(()))
    case Err(e) => Step(u.sent, u.client, Err(e))
    case Ok(_) => u
  }

  /** What the constructor is given: the LED aliases and the API key. */
  datatype Config = Config(ledMap: Option<seq<string>>, apiKey: Option<string>)

  /** A client as the constructor leaves it, speaking version `v`: every cache empty. */
  function Initial(config: Config, v: Version): Client
  {
    Client(config.ledMap, v, None, None, None, [], [], NeverFetched, None, map[])
  }

  /** The outcome of `connect`: what was sent and the connected client or the failure. */
  datatype Handshake = Handshake(sent: seq<string>, result: Result<Client, Error>)

  /**
   * `connect`: the greeting must name an API version from 1.4 to 2.2; then,
   * given a key, `apikey:<key>` must be answered `ok`. Every failure is
   * `CannotConnectError`.
   */
  function Connect(config: Config, greeting: Option<Version>, server: Server): (h: Handshake)
    ensures greeting.None? ==> h == Handshake([], Err(CannotConnect(UnrecognizedGreeting)))
    ensures greeting.Some? && !Supported(greeting.value) ==>
      h == Handshake([], Err(CannotConnect(UnsupportedVersion(greeting.value))))
    ensures h.result.Ok? <==>
      greeting.Some? && Supported(greeting.value) &&
      (config.apiKey.None? || server("apikey:" + config.apiKey.value) == "ok")
    ensures h.result.Ok? ==> h.result.value == Initial(config, greeting.value)
    ensures h.result.Err? ==> h.result.error.CannotConnect?
    ensures greeting.Some? && Supported(greeting.value) ==>
      h.sent == (if config.apiKey.Some? then ["apikey:" + config.apiKey.value] else [])
  {
    match greeting
    case None => Handshake([], Err(CannotConnect(UnrecognizedGreeting)))
    case Some(v) =>
      if Below(v, OldestSupported) || Below(NewestSupported, v) then
        Handshake([], Err(CannotConnect(UnsupportedVersion(v))))
      else
        match config.apiKey
        case None => Handshake([], Ok(Initial(config, v)))
        case Some(key) =>
          var line := "apikey:" + key;
          var response := server(line);
          if response == "ok" then Handshake([line], Ok(Initial(config, v)))
          else Handshake([line], Err(CannotConnect(BadApiKey(response))))
  }

  /**
   * On a connected client `setDevice` and `setCountLeds` run only at API
   * 1.4 and 1.5, the sound visualisation settings only at 2.1 and 2.2,
   * and persistence only at 2.2.
   */
  lemma ConnectedGates(config: Config, greeting: Option<Version>, server: Server, setting: Setting)
    requires Connect(config, greeting, server).result.Ok?
    ensures var v := Connect(config, greeting, server).result.value.apiVersion;
      Admits(SettingGate(setting), v) <==>
        match setting
        case SetDevice(_) => v.major == 1 && v.minor <= 5
        case SetCountLeds(_) => v.major == 1 && v.minor <= 5
        case SetSoundVizColour(_, _) => v.major == 2 && v.minor >= 1
        case SetSoundVizLiquid(_) => v.major == 2 && v.minor >= 1
        case SetPersistence(_) => v == V22
        case _ => true
  {
    var v := Connect(config, greeting, server).result.value.apiVersion;
    assert Supported(v);
  }

  /** The snippet of a one-digit LED index and one-digit colour. */
  lemma ExampleSnippet(index: int, r: int, g: int, b: int)
    requires 0 <= index <= 9 && 0 <= r <= 9 && 0 <= g <= 9 && 0 <= b <= 9
    ensures Snippet(index, [r, g, b]) == [DigitChar(index), '-', DigitChar(r), ',', DigitChar(g), ',', DigitChar(b)]
  {
    var digits := [[DigitChar(r)], [DigitChar(g)], [DigitChar(b)]];
    assert FormatAll([r, g, b]) == digits;
    assert Join(digits[2..], ',') == [DigitChar(b)];
    assert Join(digits[1..], ',') == [DigitChar(g)] + [','] + [DigitChar(b)];
    assert FormatInt(index) == [DigitChar(index)];
  }

  /** With two LEDs known, colouring LEDs 0 and 1 sends the single line the protocol documents. */
  lemma SetColoursExample(c: Client, server: Server)
    requires c.countLeds.Some? && c.countLeds.value >= 2
    ensures SetColours(c, server, [(Position(0), Rgb(1, 2, 3)), (Position(1), Rgb(4, 5, 6))]).sent ==
      ["setcolor:" + ("1-1,2,3" + ";" + "2-4,5,6")]
  {
    var pairs := [(Position(0), Rgb(1, 2, 3)), (Position(1), Rgb(4, 5, 6))];
    var values := ColourValues(pairs);
    var payload := Join(Snippets(Pair([1, 2], values)), ';');
    assert SetColours(c, server, pairs).sent == ["setcolor:" + payload] by {
      ExampleWrite(c, server, pairs);
    }
    ExampleColours(pairs);
    ExampleLine(values);
  }

  /** The colour fields of the example's two pairs. */
  lemma ExampleColours(pairs: seq<(Led, Rgb)>)
    requires pairs == [(Position(0), Rgb(1, 2, 3)), (Position(1), Rgb(4, 5, 6))]
    ensures ColourValues(pairs) == [[1, 2, 3], [4, 5, 6]]
  {
    assert RgbFields(pairs[0].1) == [1, 2, 3] && RgbFields(pairs[1].1) == [4, 5, 6];
  }

  /** The docstring example sends one `setcolor` line whose snippets carry wire indices 1 and 2. */
  lemma ExampleWrite(c: Client, server: Server, pairs: seq<(Led, Rgb)>)
    requires c.countLeds.Some? && c.countLeds.value >= 2
    requires |pairs| == 2 && pairs[0].0 == Position(0) && pairs[1].0 == Position(1)
    ensures SetColours(c, server, pairs).sent ==
      ["setcolor:" + Join(Snippets(Pair([1, 2], ColourValues(pairs))), ';')]
  {
    assert LedsOf(pairs) == Positions(2);
    PositionsResolve(c, server, 2);
    assert Ordinals(2) == [1, 2];
    SetColoursSendsPayload(c, server, pairs);
  }

  /** The docstring example's two colours as the joined snippet text. */
  lemma ExampleLine(values: seq<seq<int>>)
    requires values == [[1, 2, 3], [4, 5, 6]]
    ensures Join(Snippets(Pair([1, 2], values)), ';') == "1-1,2,3" + ";" + "2-4,5,6"
  {
    assert Snippets(Pair([1, 2], values)) == ["1-1,2,3", "2-4,5,6"] by {
      assert Pair([1, 2], values) == [(1, [1, 2, 3]), (2, [4, 5, 6])];
      ExampleSnippet(1, 1, 2, 3);
      ExampleSnippet(2, 4, 5, 6);
    }
    assert Join(["1-1,2,3", "2-4,5,6"], ';') == "1-1,2,3" + ";" + "2-4,5,6";
  }

  /** At API 1.5, a 2.1 setting raises before anything is sent. */
  lemma SoundVizNeedsApi21(c: Client, server: Server, low: Rgb, high: Rgb)
    requires c.apiVersion == V15
    ensures Apply(c, server, SetSoundVizColour(low, high)) ==
      Step([], c, Err(CommandNotSupported("setSoundVizColour()", V21, V15)))
  {
  }
}

=== FILE: lightpack.dfy ===
/**
 * The `Lightpack` client between calls: its state, the exceptions it
 * raises, the single request/reply exchange every method is built on, the
 * resolution of LED aliases and indices, and the getters that serve a
 * cached value unless asked for a fresh one.
 *
 * The server is a function from the command line the client writes to the
 * reply line it reads back; a method's effect is a `Step`: the commands it
 * sent, in order, the client state after it, and its value or exception.
 */
module Lightpack {
  import opened Wrappers
  import opened Strings
  import opened Wire
  import opened Versions

  /** Why `connect` raises `CannotConnectError`. */
  datatype ConnectFailure =
    | UnrecognizedGreeting
    | UnsupportedVersion(version: Version)
    | BadApiKey(response: string)

  /** The exceptions the client's methods raise. */
  datatype Error =
    | CannotConnect(failure: ConnectFailure)
      /** The server replied, but not with the expected literal. */
    | CommandFailed(command: string, response: string, expected: string)
      /** The connected API version is older than the method's minimum. */
    | CommandNotSupported(caller: string, minimum: Version, version: Version)
      /** The connected API version is newer than the method's last one. */
    | CommandDeprecated(caller: string, maximum: Version, version: Version)
      /** `aliasesDefined` tells "no aliases defined" from "alias isn't defined". */
    | AliasDoesNotExist(alias: string, aliasesDefined: bool)
      /** Python's `IndexError` for a zero-based LED index past the LED count. */
    | LedIndexOutOfRange(led: int, count: int)
      /** Python's `KeyError`: the server reported no colour for the LED. */
    | NoSuchLed(index: int)
      /** Python's `ValueError`: a reply field is not what `int()` or unpacking accepts. */
    | MalformedReply
      /** A reply without a colon, whose `None` payload Python then fails to use. */
    | MissingPayload

  /** An LED as the caller names it: an alias from the LED map or a zero-based index. */
  datatype Led = Alias(name: string) | Position(index: int)

  /**
   * The LED-size cache: the client starts with an empty list, and a fetch
   * replaces it with a dictionary.
   */
  datatype LedSizes = NeverFetched | Fetched(sizes: map<int, seq<int>>)

  /** A connected client: its configuration, the server's API version and its caches. */
  datatype Client = Client(
    ledMap: Option<seq<string>>,
    apiVersion: Version,
    countLeds: Option<int>,
    maxLeds: Option<int>,
    countMonitors: Option<int>,
    devices: seq<string>,
    profiles: seq<string>,
    ledSizes: LedSizes,
    screenSize: Option<seq<int>>,
    monitors: map<int, seq<int>>)

  /** The server: the reply line it gives to each command line. */
  type Server = string -> string

  /** What one method call did: the commands sent, the resulting state and the outcome. */
  datatype Step<T> = Step(sent: seq<string>, client: Client, result: Result<T, Error>)

  /**
   * `_sendAndExpect`: sends `command` and succeeds only when the reply is
   * exactly `expected`, raising `CommandFailedError` with the command, the
   * reply and the expected reply otherwise.
   */
  function SendAndExpect(c: Client, server: Server, command: string, expected: string): (s: Step<()>)
    ensures s.sent == [command] && s.client == c
    ensures s.result.Ok? <==> server(command) == expected
    ensures s.result.Err? ==> s.result.error == CommandFailed(command, server(command), expected)
  {
    var response := server(command);
    Step([command], c, if response == expected then Ok(()) else Err(CommandFailed(command, response, expected)))
  }

  /** `_sendAndExpectOk`: the reply must be `ok`. */
  function SendAndExpectOk(c: Client, server: Server, command: string): (s: Step<()>)
    ensures s.sent == [command] && s.client == c
    ensures s.result.Ok? <==> server(command) == "ok"
    ensures s.result.Err? ==> s.result.error == CommandFailed(command, server(command), "ok")
  {
    SendAndExpect(c, server, command, "ok")
  }

  /** `_sendAndExpectSuccess`: the reply must be the command's name followed by `:success`. */
  function SendAndExpectSuccess(c: Client, server: Server, command: string): (s: Step<()>)
    ensures s.sent == [command] && s.client == c
    ensures s.result.Ok? <==> server(command) == Name(command) + ":success"
    ensures s.result.Err? ==> s.result.error == CommandFailed(command, server(command), Name(command) + ":success")
  {
    SendAndExpect(c, server, command, Name(command) + ":success")
  }

  /**
   * The payload of `reply` read by `parse`: `MissingPayload` when the reply
   * has no colon, `MalformedReply` when `parse` rejects the payload.
   */
  function ReadReply<T>(reply: string, parse: string -> Option<T>): (r: Result<T, Error>)
    ensures r.Ok? <==> ':' in reply && parse(Payload(reply).value).Some?
    ensures r.Ok? ==> parse(Payload(reply).value) == Some(r.value)
    ensures r.Err? ==> (r.error == MissingPayload <==> ':' !in reply)
    ensures r.Err? ==> r.error == MissingPayload || r.error == MalformedReply
  {
    match Payload(reply)
    case None => Err(MissingPayload)
    case Some(p) =>
      match parse(p)
      case None => Err(MalformedReply)
      case Some(v) => Ok(v)
  }

  /** The integer counts the client caches. */
  datatype Counter = LedCount | MaxLedCount | MonitorCount

  /** The command that reads a counter. */
  function CounterCommand(k: Counter): string
  {
    match k
    case LedCount => "getcountleds"
    case MaxLedCount => "getmaxleds"
    case MonitorCount => "countmonitors"
  }

  /** The cached value of a counter, if any. */
  function Cached(c: Client, k: Counter): Option<int>
  {
    match k
    case LedCount => c.countLeds
    case MaxLedCount => c.maxLeds
    case MonitorCount => c.countMonitors
  }

  /** `c` with `n` cached for counter `k`, and nothing else changed. */
  function WithCached(c: Client, k: Counter, n: int): (c': Client)
    ensures Cached(c', k) == Some(n)
    ensures forall other :: other != k ==> Cached(c', other) == Cached(c, other)
    ensures c'.ledMap == c.ledMap && c'.apiVersion == c.apiVersion
  {
    match k
    case LedCount => c.(countLeds := Some(n))
    case MaxLedCount => c.(maxLeds := Some(n))
    case MonitorCount => c.(countMonitors := Some(n))
  }

  /**
   * `getCountLeds`, `getMaxLeds` and `getCountMonitors`: with `fresh` false
   * and a cached count, the cached count and no command; otherwise one
   * command whose payload's integer is returned and cached.
   */
  function GetCount(c: Client, server: Server, k: Counter, refresh: bool): (s: Step<int>)
    ensures !refresh && Cached(c, k).Some? ==> s == Step([], c, Ok(Cached(c, k).value))
    ensures refresh || Cached(c, k).None? ==>
      s.sent == [CounterCommand(k)] && s.result == ReadReply(server(CounterCommand(k)), ParseInt)
    ensures s.result.Ok? ==> s.client == WithCached(c, k, s.result.value)
    ensures s.result.Err? ==> s.client == c
  {
    if refresh || Cached(c, k).None? then
      var command := CounterCommand(k);
      match ReadReply(server(command), ParseInt)
      case Err(e) => Step([command], c, Err(e))
      case Ok(n) => Step([command], WithCached(c, k, n), Ok(n))
    else
      Step([], c, Ok(Cached(c, k).value))
  }

  /** A second read that does not ask for freshness repeats the first one's value and sends nothing. */
  lemma CountIsCached(c: Client, server: Server, later: Server, k: Counter, refresh: bool)
    requires GetCount(c, server, k, refresh).result.Ok?
    ensures var first := GetCount(c, server, k, refresh);
      GetCount(first.client, later, k, false) == Step([], first.client, first.result)
  {
  }

  /** `c'` is `c`, or `c` with an LED count cached where it had none: what resolving LEDs may do. */
  predicate Extends(c': Client, c: Client)
  {
    c' == c || (c.countLeds.None? && c' == c.(countLeds := c'.countLeds))
  }

  /**
   * The one-based wire index an LED names in client `c`: an alias's first
   * position in the LED map plus one; a zero-based index plus one, no more
   * than the cached LED count.
   */
  predicate Resolves(c: Client, led: Led, index: int)
  {
    match led
    case Alias(name) =>
      && c.ledMap.Some?
      && 1 <= index <= |c.ledMap.value|
      && c.ledMap.value[index - 1] == name
      && name !in c.ledMap.value[..index - 1]
    case Position(p) =>
      c.countLeds.Some? && index == p + 1 && index <= c.countLeds.value
  }

  /**
   * `_ledIndex`: an alias is looked up in the LED map without any command;
   * an index is checked against the LED count, read from the server only
   * when none is cached.
   */
  function LedIndex(c: Client, server: Server, led: Led): (s: Step<int>)
    ensures Extends(s.client, c)
    ensures s.result.Ok? ==> Resolves(s.client, led, s.result.value)
    ensures led.Alias? ==> s.sent == [] && s.client == c
    ensures led.Alias? ==> (s.result.Ok? <==> c.ledMap.Some? && led.name in c.ledMap.value)
    ensures led.Alias? && s.result.Err? ==> s.result.error == AliasDoesNotExist(led.name, c.ledMap.Some?)
    ensures led.Position? ==> s.sent == (if c.countLeds.Some? then [] else ["getcountleds"])
    ensures led.Position? ==>
      (s.result.Ok? <==> s.client.countLeds.Some? && led.index + 1 <= s.client.countLeds.value)
    ensures led.Position? && s.result.Err? && s.client.countLeds.Some? ==>
      s.result.error == LedIndexOutOfRange(led.index, s.client.countLeds.value)
    ensures led.Position? ==> var n := GetCount(c, server, LedCount, false);
      s.client == n.client && (n.result.Err? ==> s.result == Err(n.result.error))
  {
    match led
    case Alias(name) =>
      if c.ledMap.None? then Step([], c, Err(AliasDoesNotExist(name, false)))
      else (
        match IndexOf(c.ledMap.value, name)
        case None => Step([], c, Err(AliasDoesNotExist(name, true)))
        case Some(i) => Step([], c, Ok(i + 1)))
    case Position(p) =>
      var n := GetCount(c, server, LedCount, false);
      match n.result
      case Err(e) => Step(n.sent, n.client, Err(e))
      case Ok(count) =>
        if p + 1 > count then Step(n.sent, n.client, Err(LedIndexOutOfRange(p, count)))
        else Step(n.sent, n.client, Ok(p + 1))
  }

  /** Whether `led` names an LED in `c` at all. */
  predicate Resolvable(c: Client, led: Led)
  {
    match led
    case Alias(name) => c.ledMap.Some? && name in c.ledMap.value
    case Position(p) => c.countLeds.Some? && p + 1 <= c.countLeds.value
  }

  /** Gaining a cached LED count twice is gaining it once. */
  lemma ExtendsTrans(c: Client, c': Client, c'': Client)
    requires Extends(c', c) && Extends(c'', c')
    ensures Extends(c'', c)
  {
  }

  /** A resolution stays valid when the client only gains a cached LED count. */
  lemma ResolvesStable(c: Client, c': Client, led: Led, index: int)
    requires Resolves(c, led, index) && Extends(c', c)
    ensures Resolves(c', led, index)
  {
  }

  /**
   * `[self._ledIndex(arg) for arg in args]`: every LED resolved in order,
   * stopping at the first that does not resolve. At most one command is
   * sent, the LED count, and none when it is cached.
   */
  function ResolveAll(c: Client, server: Server, leds: seq<Led>): (s: Step<seq<int>>)
    ensures Extends(s.client, c)
    ensures s.result.Ok? ==> |s.result.value| == |leds|
    ensures s.result.Ok? ==> forall i :: 0 <= i < |leds| ==> Resolves(s.client, leds[i], s.result.value[i])
    ensures (forall i :: 0 <= i < |leds| ==> Resolvable(c, leds[i])) ==> s.result.Ok? && s.sent == []
    ensures s.sent == [] || s.sent == ["getcountleds"]
    ensures c.countLeds.Some? ==> s.sent == []
    decreases |leds|
  {
    if |leds| == 0 then Step([], c, Ok([]))
    else
      var first := LedIndex(c, server, leds[0]);
      match first.result
      case Err(e) => Step(first.sent, first.client, Err(e))
      case Ok(index) =>
        assert first.sent == ["getcountleds"] ==> first.client.countLeds.Some?;
        assert Resolvable(c, leds[0]) ==> first.client == c;
        var rest := ResolveAll(first.client, server, leds[1..]);
        ResolvesStable(first.client, rest.client, leds[0], index);
        ExtendsTrans(c, first.client, rest.client);
        match rest.result
        case Err(e) => Step(first.sent + rest.sent, rest.client, Err(e))
        case Ok(indices) =>
          ResolvesCons(rest.client, leds, index, indices);
          Step(first.sent + rest.sent, rest.client, Ok([index] + indices))
  }

  /** No LED count is cached, and an index comes before any LED that does not resolve in `c`. */
  predicate NeedsCount(c: Client, leds: seq<Led>)
  {
    c.countLeds.None? &&
    exists k :: 0 <= k < |leds| && leds[k].Position? && forall i :: 0 <= i < k ==> Resolvable(c, leds[i])
  }

  /**
   * Resolving LEDs changes the client only through `getCountLeds()`: with
   * nothing sent the client is unchanged, and with `getcountleds` sent it
   * is what `getCountLeds()` leaves. That command goes out exactly when no
   * count is cached and an index comes before any LED that does not resolve.
   */
  lemma ResolveAllCount(c: Client, server: Server, leds: seq<Led>)
    ensures var s := ResolveAll(c, server, leds); s.sent == [] ==> s.client == c
    ensures var s := ResolveAll(c, server, leds);
      s.sent == ["getcountleds"] ==> s.client == GetCount(c, server, LedCount, false).client
    ensures ResolveAll(c, server, leds).sent == ["getcountleds"] <==> NeedsCount(c, leds)
  {
    ResolveAllClient(c, server, leds);
    ResolveAllSends(c, server, leds);
  }

  /** The client after resolving: unchanged without a command, `getCountLeds()`'s after one. */
  lemma {:induction false} ResolveAllClient(c: Client, server: Server, leds: seq<Led>)
    ensures var s := ResolveAll(c, server, leds); s.sent == [] ==> s.client == c
    ensures var s := ResolveAll(c, server, leds);
      s.sent == ["getcountleds"] ==> s.client == GetCount(c, server, LedCount, false).client
    decreases |leds|
  {
    if |leds| > 0 {
      var first := LedIndex(c, server, leds[0]);
      if first.result.Ok? {
        ResolveAllClient(first.client, server, leds[1..]);
      }
    }
  }

  /** Resolving sends `getcountleds` exactly when the LEDs need the count. */
  lemma {:induction false} ResolveAllSends(c: Client, server: Server, leds: seq<Led>)
    ensures ResolveAll(c, server, leds).sent == ["getcountleds"] <==> NeedsCount(c, leds)
    decreases |leds|
  {
    if |leds| > 0 {
      var first := LedIndex(c, server, leds[0]);
      if leds[0].Position? && c.countLeds.None? {
        assert NeedsCount(c, leds) by {
          assert 0 <= 0 < |leds| && leds[0].Position?;
        }
      } else if first.result.Ok? {
        assert first.sent == [] && first.client == c && Resolvable(c, leds[0]);
        ResolveAllSends(c, server, leds[1..]);
        NeedsCountTail(c, leds);
      } else {
        assert !NeedsCount(c, leds) by {
          if c.countLeds.None? {
            assert !Resolvable(c, leds[0]) && leds[0].Alias?;
          }
        }
      }
    }
  }

  /** After a first LED that resolves, the LEDs need the count exactly when the rest do. */
  lemma NeedsCountTail(c: Client, leds: seq<Led>)
    requires 1 <= |leds| && Resolvable(c, leds[0])
    ensures NeedsCount(c, leds) <==> NeedsCount(c, leds[1..])
  {
    if NeedsCount(c, leds) {
      var k :| 0 <= k < |leds| && leds[k].Position? && forall i :: 0 <= i < k ==> Resolvable(c, leds[i]);
      assert 1 <= k;
      assert leds[1..][k - 1] == leds[k];
      assert forall i :: 0 <= i < k - 1 ==> leds[1..][i] == leds[i + 1];
    }
    if NeedsCount(c, leds[1..]) {
      var k :| 0 <= k < |leds| - 1 && leds[1..][k].Position? && forall i :: 0 <= i < k ==> Resolvable(c, leds[1..][i]);
      assert leds[k + 1] == leds[1..][k];
      assert forall i :: 1 <= i < k + 1 ==> leds[i] == leds[1..][i - 1];
    }
  }

  /** The first LED's index put before the indices of the others, all resolving in the same client. */
  lemma ResolvesCons(c: Client, leds: seq<Led>, index: int, indices: seq<int>)
    requires 1 <= |leds| && |indices| == |leds| - 1 && Resolves(c, leds[0], index)
    requires forall i :: 0 <= i < |leds| - 1 ==> Resolves(c, leds[1..][i], indices[i])
    ensures forall i :: 0 <= i < |leds| ==> Resolves(c, leds[i], ([index] + indices)[i])
  {
    forall i | 1 <= i < |leds|
      ensures Resolves(c, leds[i], ([index] + indices)[i])
    {
      assert leds[i] == leds[1..][i - 1] && ([index] + indices)[i] == indices[i - 1];
    }
  }

  /** Resolving LED `led0` first does not change how any LED resolves afterwards. */
  lemma LedIndexAfter(c: Client, server: Server, led0: Led, led: Led)
    ensures LedIndex(LedIndex(c, server, led0).client, server, led).result == LedIndex(c, server, led).result
  {
    var first := LedIndex(c, server, led0);
    if first.client != c {
      var n := GetCount(c, server, LedCount, false);
      assert first.client == n.client;
    }
  }

  /**
   * `r` is what a comprehension over the outcomes `xs` gives: every value in
   * order when all succeed, otherwise the error of the first failure.
   */
  predicate Collects(r: Result<seq<int>, Error>, xs: seq<Result<int, Error>>)
  {
    && (r.Ok? <==> forall i :: 0 <= i < |xs| ==> xs[i].Ok?)
    && (r.Ok? ==> |r.value| == |xs| && forall i :: 0 <= i < |xs| ==> r.value[i] == xs[i].value)
    && (r.Err? ==> exists k :: 0 <= k < |xs| && FirstErr(xs, k) && r.error == xs[k].error)
  }

  /** `xs[k]` is the first failed outcome. */
  predicate FirstErr(xs: seq<Result<int, Error>>, k: int)
  {
    0 <= k < |xs| && xs[k].Err? && forall i :: 0 <= i < k ==> xs[i].Ok?
  }

  /** Each LED's outcome when resolved on its own in `c`. */
  function LedResults(c: Client, server: Server, leds: seq<Led>): (xs: seq<Result<int, Error>>)
    ensures |xs| == |leds|
    ensures forall i :: 0 <= i < |leds| ==> xs[i] == LedIndex(c, server, leds[i]).result
  {
    seq(|leds|, i requires 0 <= i < |leds| => LedIndex(c, server, leds[i]).result)
  }

  /**
   * `[self._ledIndex(arg) for arg in args]` succeeds exactly when every LED
   * resolves on its own, with each LED's own wire index; otherwise it raises
   * the error of the first LED that does not.
   */
  lemma {:induction false} ResolveAllResults(c: Client, server: Server, leds: seq<Led>)
    ensures Collects(ResolveAll(c, server, leds).result, LedResults(c, server, leds))
    decreases |leds|
  {
    var xs := LedResults(c, server, leds);
    if |leds| == 0 {
      assert ResolveAll(c, server, leds).result == Ok([]);
    } else {
      var first := LedIndex(c, server, leds[0]);
      if first.result.Err? {
        assert FirstErr(xs, 0);
      } else {
        var tail := leds[1..];
        ResolveAllResults(first.client, server, tail);
        LedResultsAfter(c, server, leds, first.client);
        CollectsCons(xs[0], xs[1..], ResolveAll(first.client, server, tail).result, ResolveAll(c, server, leds).result);
        HeadTail(xs);
      }
    }
  }

  /** After the first LED resolved, the others have the outcomes they have in the original client. */
  lemma LedResultsAfter(c: Client, server: Server, leds: seq<Led>, c': Client)
    requires 1 <= |leds| && c' == LedIndex(c, server, leds[0]).client
    ensures LedResults(c', server, leds[1..]) == LedResults(c, server, leds)[1..]
  {
    forall i | 0 <= i < |leds| - 1
      ensures LedIndex(c', server, leds[1..][i]).result == LedIndex(c, server, leds[i + 1]).result
    {
      LedIndexAfter(c, server, leds[0], leds[i + 1]);
    }
  }

  /** A successful first outcome put before the rest of a comprehension. */
  lemma CollectsCons(x: Result<int, Error>, xs: seq<Result<int, Error>>, r: Result<seq<int>, Error>, combined: Result<seq<int>, Error>)
    requires x.Ok? && Collects(r, xs)
    requires combined == (match r case Err(e) => Err(e) case Ok(v) => Ok([x.value] + v))
    ensures Collects(combined, [x] + xs)
  {
    var ys := [x] + xs;
    assert ys[0] == x && forall i :: 1 <= i < |ys| ==> ys[i] == xs[i - 1];
    if r.Err? {
      var k :| 0 <= k < |xs| && FirstErr(xs, k) && r.error == xs[k].error;
      assert FirstErr(ys, k + 1);
    }
  }

  /** The list caches, filled from `;`-separated list replies. */
  datatype Listing = DeviceList | ProfileList

  /** The command that reads a list. */
  function ListingCommand(l: Listing): string
  {
    match l
    case DeviceList => "getdevices"
    case ProfileList => "getprofiles"
  }

  /** The cached list, empty until read. */
  function CachedList(c: Client, l: Listing): seq<string>
  {
    match l
    case DeviceList => c.devices
    case ProfileList => c.profiles
  }

  /** A list payload read as its entries, which never fails. */
  function ListReader(payload: string): Option<seq<string>>
  {
    Some(ListEntries(payload))
  }

  /**
   * `getDevices` and `getProfiles`: with `fresh` false and a non-empty
   * cached list, that list and no command; otherwise the reply's list,
   * cached.
   */
  function GetList(c: Client, server: Server, l: Listing, refresh: bool): (s: Step<seq<string>>)
    ensures !refresh && CachedList(c, l) != [] ==> s == Step([], c, Ok(CachedList(c, l)))
    ensures refresh || CachedList(c, l) == [] ==>
      s.sent == [ListingCommand(l)] && (s.result.Ok? <==> ':' in server(ListingCommand(l)))
    ensures refresh || CachedList(c, l) == [] ==>
      s.result.Ok? ==> s.result.value == ListEntries(Payload(server(ListingCommand(l))).value)
    ensures s.result.Ok? ==> s.result.value != [] && CachedList(s.client, l) == s.result.value
    ensures s.result.Ok? ==>
      s.client == match l case DeviceList => c.(devices := s.result.value) case ProfileList => c.(profiles := s.result.value)
    ensures s.result.Err? ==> s.result.error == MissingPayload && s.client == c
  {
    if refresh || CachedList(c, l) == [] then
      var command := ListingCommand(l);
      match ReadReply(server(command), ListReader)
      case Err(e) => Step([command], c, Err(e))
      case Ok(items) =>
        var c' := match l case DeviceList => c.(devices := items) case ProfileList => c.(profiles := items);
        Step([command], c', Ok(items))
    else
      Step([], c, Ok(CachedList(c, l)))
  }

  /** A list the server sends as `name:a;b;...;` reads as its items. */
  lemma GetListReadsServerList(c: Client, server: Server, l: Listing, items: seq<string>, trailing: nat)
    requires 1 <= |items| && 1 <= |items[|items| - 1]|
    requires forall i :: 0 <= i < |items| ==> ';' !in items[i]
    requires server(ListingCommand(l)) == ListingCommand(l) + ":" + Join(items, ';') + Repeat(';', trailing)
    ensures GetList(c, server, l, true).result == Ok(items)
  {
    var payload := Join(items, ';') + Repeat(';', trailing);
    assert server(ListingCommand(l)) == ListingCommand(l) + ":" + payload;
    NameAndPayloadOfLine(ListingCommand(l), payload);
    ListEntriesRoundTrip(items, trailing);
  }

  /**
   * One `getleds` exchange. The cache is emptied before the snippets are
   * read, so a snippet that does not read leaves the entries before it
   * cached; a reply without a colon fails first and leaves the cache alone.
   */
  function FetchLedSizes(c: Client, server: Server): (s: Step<map<int, seq<int>>>)
    ensures s.sent == ["getleds"]
    ensures s.result == ReadReply(server("getleds"), ParseLedSizes)
    ensures s.result.Ok? ==> s.client == c.(ledSizes := Fetched(s.result.value))
    ensures s.result.Ok? ==> s.result.value != map[]
    ensures ':' !in server("getleds") ==> s.client == c
    ensures ':' in server("getleds") ==>
      s.client == c.(ledSizes := Fetched(ToMap(ReadWhile(ListEntries(Payload(server("getleds")).value), SnippetReader(3)))))
  {
    match Payload(server("getleds"))
    case None => Step(["getleds"], c, Err(MissingPayload))
    case Some(p) =>
      var snippets := ListEntries(p);
      var entries := ReadWhile(snippets, SnippetReader(3));
      var sizes := ToMap(entries);
      if |entries| == |snippets| then
        ToMapKeys(entries);
        assert entries[0].0 in sizes;
        Step(["getleds"], c.(ledSizes := Fetched(sizes)), Ok(sizes))
      else
        Step(["getleds"], c.(ledSizes := Fetched(sizes)), Err(MalformedReply))
  }

  /**
   * `getLedSizes` as the repository writes it: the cache is tested with
   * `== {}`, but a client starts with the empty list `[]`, so before any
   * fetch a call with `fresh` false returns that list and sends nothing.
   */
  function GetLedSizesAsWritten(c: Client, server: Server, refresh: bool): (s: Step<LedSizes>)
    ensures !refresh && c.ledSizes.NeverFetched? ==> s == Step([], c, Ok(NeverFetched))
    ensures refresh ==> s.sent == ["getleds"]
  {
    if refresh || c.ledSizes == Fetched(map[]) then
      var f := FetchLedSizes(c, server);
      Step(f.sent, f.client, match f.result case Ok(m) => Ok(Fetched(m)) case Err(e) => Err(e))
    else
      Step([], c, Ok(c.ledSizes))
  }

  /** A client that never fetched LED sizes answers `refresh = False` with nothing, whatever the server holds. */
  lemma LedSizesNeverFetchedAsWritten(c: Client, server: Server)
    requires c.ledSizes.NeverFetched?
    ensures GetLedSizesAsWritten(c, server, false).sent == []
    ensures GetLedSizesAsWritten(c, server, false).result == Ok(NeverFetched)
  {
  }

  /**
   * `getLedSizes` as intended: with `fresh` false and sizes cached, those
   * sizes and no command; otherwise one `getleds` exchange.
   */
  function GetLedSizes(c: Client, server: Server, refresh: bool): (s: Step<map<int, seq<int>>>)
    ensures !refresh && c.ledSizes.Fetched? && c.ledSizes.sizes != map[] ==>
      s == Step([], c, Ok(c.ledSizes.sizes))
    ensures refresh || c.ledSizes.NeverFetched? || c.ledSizes.sizes == map[] ==>
      s.sent == ["getleds"] && s.result == ReadReply(server("getleds"), ParseLedSizes)
    ensures refresh || c.ledSizes.NeverFetched? || c.ledSizes.sizes == map[] ==> s == FetchLedSizes(c, server)
    ensures s.result.Ok? ==> s.client == c.(ledSizes := Fetched(s.result.value))
  {
    if refresh || c.ledSizes.NeverFetched? || c.ledSizes.sizes == map[] then
      FetchLedSizes(c, server)
    else
      Step([], c, Ok(c.ledSizes.sizes))
  }

  /** Once sizes have been read, a call with `fresh` false repeats them and sends nothing. */
  lemma LedSizesAreCached(c: Client, server: Server, later: Server, refresh: bool)
    requires GetLedSizes(c, server, refresh).result.Ok?
    ensures var first := GetLedSizes(c, server, refresh);
      GetLedSizes(first.client, later, false) == Step([], first.client, first.result)
  {
  }

  /**
   * `getScreenSize`: with `fresh` false and a cached size, that size;
   * otherwise the reply's rectangle, cached. A reply without a colon or with
   * a field that is not an integer gives None and leaves the cache alone.
   */
  function GetScreenSize(c: Client, server: Server, refresh: bool): (s: Step<Option<seq<int>>>)
    ensures s.result.Ok?
    ensures !refresh && c.screenSize.Some? ==> s == Step([], c, Ok(c.screenSize))
    ensures refresh || c.screenSize.None? ==> s.sent == ["getscreensize"]
    ensures refresh || c.screenSize.None? ==>
      s.result.value == ReadReply(server("getscreensize"), ReadRectangle).ToOption()
    ensures s.result.value.Some? ==> s.client == c.(screenSize := s.result.value)
    ensures s.result.value.None? ==> s.client == c
  {
    if refresh || c.screenSize.None? then
      match ReadReply(server("getscreensize"), ReadRectangle)
      case Err(_) => Step(["getscreensize"], c, Ok(None))
      case Ok(r) => Step(["getscreensize"], c.(screenSize := Some(r)), Ok(Some(r)))
    else
      Step([], c, Ok(c.screenSize))
  }

  /**
   * `getMonitorSize`: with `fresh` false and the monitor cached, its cached
   * size; otherwise `getsizemonitor:<n>` and the reply's rectangle, cached.
   * A reply without a colon gives None; a field that is not an integer
   * raises.
   */
  function GetMonitorSize(c: Client, server: Server, monitor: int, refresh: bool): (s: Step<Option<seq<int>>>)
    ensures !refresh && monitor in c.monitors ==> s == Step([], c, Ok(Some(c.monitors[monitor])))
    ensures refresh || monitor !in c.monitors ==> s.sent == ["getsizemonitor:" + FormatInt(monitor)]
    ensures s.result.Ok? && s.result.value.Some? ==> s.client == c.(monitors := c.monitors[monitor := s.result.value.value])
    ensures s.result.Err? ==> s.result.error == MalformedReply && s.client == c
    ensures refresh || monitor !in c.monitors ==>
      var reply := ReadReply(server("getsizemonitor:" + FormatInt(monitor)), ReadRectangle);
      && (reply == Err(MissingPayload) ==> s == Step(s.sent, c, Ok(None)))
      && (reply.Ok? ==> s.result == Ok(Some(reply.value)))
      && (reply == Err(MalformedReply) ==> s.result == Err(MalformedReply))
  {
    var command := "getsizemonitor:" + FormatInt(monitor);
    if refresh || monitor !in c.monitors then
      match ReadReply(server(command), ReadRectangle)
      case Err(MissingPayload) => Step([command], c, Ok(None))
      case Err(e) => Step([command], c, Err(e))
      case Ok(r) => Step([command], c.(monitors := c.monitors[monitor := r]), Ok(Some(r)))
    else
      Step([], c, Ok(Some(c.monitors[monitor])))
  }

  /** A monitor size the server writes as `%d,%d,%d,%d` after its reply name reads back and is cached. */
  lemma MonitorSizeReadsServer(c: Client, server: Server, monitor: int, name: string, rect: Rect)
    requires ':' !in name
    requires server("getsizemonitor:" + FormatInt(monitor)) == name + ":" + Fields(RectFields(rect))
    ensures var s := GetMonitorSize(c, server, monitor, true);
      s.result == Ok(Some(RectFields(rect))) && s.client.monitors == c.monitors[monitor := RectFields(rect)]
  {
    NameAndPayloadOfLine(name, Fields(RectFields(rect)));
    RectangleRoundTrip(rect);
  }

  /** A screen size the server writes as `%d,%d,%d,%d` after its reply name reads back and is cached. */
  lemma ScreenSizeReadsServer(c: Client, server: Server, name: string, rect: Rect)
    requires ':' !in name
    requires server("getscreensize") == name + ":" + Fields(RectFields(rect))
    ensures var s := GetScreenSize(c, server, true);
      s.result == Ok(Some(RectFields(rect))) && s.client.screenSize == Some(RectFields(rect))
  {
    NameAndPayloadOfLine(name, Fields(RectFields(rect)));
    RectangleRoundTrip(rect);
  }
}

=== FILE: strings.dfy ===
/**
 * The Python `str` operations the client's wire codec is built from, over
 * `seq<char>`: `index`/`find`, `split` with a `maxsplit`, `join`, `rstrip`
 * of one character, `strip`, `'%d' %` formatting and `int()`.
 */
module Strings {
  import opened Wrappers

  /** Position of the first `x` in `xs` (Python's `list.index`, `str.find`), or None. */
  function IndexOf<T(==)>(xs: seq<T>, x: T): (r: Option<nat>)
    ensures r.None? <==> x !in xs
    ensures r.Some? ==> r.value < |xs| && xs[r.value] == x && x !in xs[..r.value]
  {
    if |xs| == 0 then None
    else if xs[0] == x then Some(0)
    else match IndexOf(xs[1..], x)
      case None =>
        assert xs == [xs[0]] + xs[1..];
        None
      case Some(i) =>
        assert xs[..i + 1] == [xs[0]] + xs[1..][..i];
        Some(i + 1)
  }

  /** The first `x` in `a + [x] + b` is the one after `a` when `a` holds none. */
  lemma {:induction false} IndexOfAfter<T>(a: seq<T>, x: T, b: seq<T>)
    requires x !in a
    ensures IndexOf(a + [x] + b, x) == Some(|a|)
    decreases |a|
  {
    if |a| > 0 {
      assert (a + [x] + b)[1..] == a[1..] + [x] + b;
      IndexOfAfter(a[1..], x, b);
    }
  }

  /**
   * Python's `s.split(sep, maxsplit)`: cut at the first `maxsplit`
   * separators, or at all of them when `maxsplit` is negative.
   */
  function Split(s: string, sep: char, maxsplit: int): (parts: seq<string>)
    ensures 1 <= |parts|
    ensures maxsplit >= 0 ==> |parts| <= maxsplit + 1
    ensures sep !in s ==> parts == [s]
    ensures sep in s && maxsplit != 0 ==> |parts| >= 2
    ensures forall i :: 0 <= i < |parts| - 1 ==> sep !in parts[i]
    ensures maxsplit < 0 || |parts| <= maxsplit ==> sep !in parts[|parts| - 1]
    decreases |s|
  {
    match IndexOf(s, sep)
    case None => [s]
    case Some(i) =>
      if maxsplit == 0 then [s]
      else [s[..i]] + Split(s[i + 1..], sep, if maxsplit < 0 then maxsplit else maxsplit - 1)
  }

  /**
   * Python's `sep.join(parts)`: the first part comes first, and with two or
   * more parts a separator follows it.
   */
  function Join(parts: seq<string>, sep: char): (r: string)
    ensures 1 <= |parts| ==> parts[0] <= r
    ensures 2 <= |parts| ==> |parts[0]| < |r| && r[|parts[0]|] == sep
  {
    if |parts| == 0 then ""
    else if |parts| == 1 then parts[0]
    else parts[0] + [sep] + Join(parts[1..], sep)
  }

  /** Joining the pieces of a split gives back the string that was split. */
  lemma {:induction false} SplitThenJoin(s: string, sep: char, maxsplit: int)
    ensures Join(Split(s, sep, maxsplit), sep) == s
    decreases |s|
  {
    match IndexOf(s, sep)
    case None =>
    case Some(i) =>
      if maxsplit != 0 {
        var next := if maxsplit < 0 then maxsplit else maxsplit - 1;
        var tail := s[i + 1..];
        SplitAtFirst(s, sep, maxsplit, i);
        SplitThenJoin(tail, sep, next);
        JoinCons(s[..i], Split(tail, sep, next), sep);
      }
  }

  /** Joining a piece in front of at least one more puts the separator between them. */
  lemma JoinCons(head: string, rest: seq<string>, sep: char)
    requires 1 <= |rest|
    ensures Join([head] + rest, sep) == head + [sep] + Join(rest, sep)
  {
    assert ([head] + rest)[1..] == rest;
  }

  /** A split with cuts left breaks the string at the first separator. */
  lemma SplitAtFirst(s: string, sep: char, maxsplit: int, i: nat)
    requires IndexOf(s, sep) == Some(i) && maxsplit != 0
    ensures Split(s, sep, maxsplit) ==
      [s[..i]] + Split(s[i + 1..], sep, if maxsplit < 0 then maxsplit else maxsplit - 1)
    ensures s == s[..i] + [sep] + s[i + 1..]
  {
    AroundIndex(s, i);
  }

  /** A string is what lies before an index, the character there, and what follows. */
  lemma AroundIndex(s: string, i: nat)
    requires i < |s|
    ensures s == s[..i] + [s[i]] + s[i + 1..]
  {
  }

  /**
   * Splitting a join gives back its pieces when none of them holds the
   * separator and `maxsplit` allows every cut.
   */
  lemma {:induction false} JoinThenSplit(parts: seq<string>, sep: char, maxsplit: int)
    requires 1 <= |parts|
    requires forall i :: 0 <= i < |parts| ==> sep !in parts[i]
    requires maxsplit < 0 || |parts| - 1 <= maxsplit
    ensures Split(Join(parts, sep), sep, maxsplit) == parts
    decreases |parts|
  {
    if |parts| > 1 {
      var head := parts[0];
      var rest := Join(parts[1..], sep);
      var s := head + [sep] + rest;
      assert Join(parts, sep) == s;
      IndexOfAfter(head, sep, rest);
      assert s[..|head|] == head;
      assert s[|head| + 1..] == rest;
      var next := if maxsplit < 0 then maxsplit else maxsplit - 1;
      assert Split(s, sep, maxsplit) == [head] + Split(rest, sep, next);
      JoinThenSplit(parts[1..], sep, next);
      HeadTail(parts);
    }
  }

  /** The last character of a join is the last character of its last piece. */
  lemma {:induction false} JoinEndsWithLastPart(parts: seq<string>, sep: char)
    requires 1 <= |parts| && 1 <= |parts[|parts| - 1]|
    ensures var s := Join(parts, sep); |s| >= 1 && s[|s| - 1] == parts[|parts| - 1][|parts[|parts| - 1]| - 1]
    decreases |parts|
  {
    if |parts| > 1 {
      JoinEndsWithLastPart(parts[1..], sep);
    }
  }

  /** `n` copies of `c`. */
  function Repeat(c: char, n: nat): (r: string)
    ensures |r| == n && forall i :: 0 <= i < n ==> r[i] == c
  {
    seq(n, _ => c)
  }

  /** Python's `s.rstrip(c)`: `s` without the run of `c` at its end. */
  function RStrip(s: string, c: char): (r: string)
    ensures r <= s
    ensures |r| == 0 || r[|r| - 1] != c
    ensures forall i :: |r| <= i < |s| ==> s[i] == c
  {
    if |s| > 0 && s[|s| - 1] == c then RStrip(s[..|s| - 1], c) else s
  }

  /** Stripping `c` removes exactly the copies of `c` appended to a string not ending in `c`. */
  lemma {:induction false} RStripAppended(s: string, c: char, n: nat)
    requires |s| == 0 || s[|s| - 1] != c
    ensures RStrip(s + Repeat(c, n), c) == s
  {
    if n > 0 {
      var t := s + Repeat(c, n);
      assert t[|t| - 1] == c;
      assert t[..|t| - 1] == s + Repeat(c, n - 1);
      RStripAppended(s, c, n - 1);
    } else {
      assert s + Repeat(c, 0) == s;
    }
  }

  /** Python's `str.isspace` for one character (`str.strip` and `int()` remove these). */
  predicate IsSpace(ch: char)
  {
    || ch == ' '
    || ('\t' <= ch <= '\r')
    || ('\U{1c}' <= ch <= '\U{1f}')
    || ch == '\U{85}' || ch == '\U{a0}' || ch == '\U{1680}'
    || ('\U{2000}' <= ch <= '\U{200a}')
    || ch == '\U{2028}' || ch == '\U{2029}' || ch == '\U{202f}'
    || ch == '\U{205f}' || ch == '\U{3000}'
  }

  /** Python's `s.strip()`: `s` without leading and trailing whitespace. */
  function Strip(s: string): (r: string)
    ensures |r| <= |s|
    ensures |r| == 0 || (!IsSpace(r[0]) && !IsSpace(r[|r| - 1]))
    decreases |s|
  {
    if |s| > 0 && IsSpace(s[0]) then Strip(s[1..])
    else if |s| > 0 && IsSpace(s[|s| - 1]) then Strip(s[..|s| - 1])
    else s
  }

  /** `strip()` is `lstrip()` followed by `rstrip()`. */
  lemma {:induction false} StripIsLR(s: string)
    ensures Strip(s) == RStripSpace(LStrip(s))
    decreases |s|
  {
    if |s| > 0 && IsSpace(s[0]) {
      StripIsLR(s[1..]);
    } else if |s| > 0 && IsSpace(s[|s| - 1]) {
      var init := s[..|s| - 1];
      assert init[0] == s[0];
      StripIsLR(init);
    }
  }

  /** Python's `s.lstrip()`: a suffix of `s` that does not start with whitespace. */
  function LStrip(s: string): (r: string)
    ensures |r| <= |s| && r == s[|s| - |r|..]
    ensures |r| == 0 || !IsSpace(r[0])
  {
    if |s| > 0 && IsSpace(s[0]) then LStrip(s[1..]) else s
  }

  /** Python's `s.rstrip()`: a prefix of `s` that does not end with whitespace. */
  function RStripSpace(s: string): (r: string)
    ensures |r| <= |s| && r == s[..|r|]
    ensures |r| == 0 || !IsSpace(r[|r| - 1])
  {
    if |s| > 0 && IsSpace(s[|s| - 1]) then RStripSpace(s[..|s| - 1]) else s
  }

  /** All-whitespace text, which `strip()` removes entirely. */
  predicate Blank(w: string)
  {
    forall k :: 0 <= k < |w| ==> IsSpace(w[k])
  }

  /** `r` is the slice of `s` at `i` with only whitespace on either side of it. */
  predicate Trims(s: string, i: int, r: string)
  {
    && 0 <= i <= |s| - |r|
    && r == s[i..i + |r|]
    && (forall k :: 0 <= k < i ==> IsSpace(s[k]))
    && (forall k :: i + |r| <= k < |s| ==> IsSpace(s[k]))
  }

  /**
   * `strip()` keeps a slice of the text and removes only whitespace on
   * either side of it, so it gives the empty string exactly for blank text.
   */
  lemma StripTrims(s: string)
    ensures exists i :: Trims(s, i, Strip(s))
    ensures Strip(s) == "" <==> Blank(s)
  {
    StripIsLR(s);
    LRTrims(s);
    LRBlank(s);
    assert Trims(s, |s| - |LStrip(s)|, Strip(s));
  }

  /** The slice `rstrip()` leaves of `lstrip()`'s result starts where `lstrip()` stopped. */
  lemma LRTrims(s: string)
    ensures Trims(s, |s| - |LStrip(s)|, RStripSpace(LStrip(s)))
  {
    LRSlice(s);
    LStripRemovesSpace(s);
    LRBack(s);
  }

  /** What `rstrip()` leaves of `lstrip()`'s result is a slice of `s` where `lstrip()` stopped. */
  lemma LRSlice(s: string)
    ensures var l := LStrip(s); var r := RStripSpace(l); var i := |s| - |l|;
      0 <= i <= |s| - |r| && r == s[i..i + |r|]
  {
    var l := LStrip(s);
    var r := RStripSpace(l);
    var i := |s| - |l|;
    SliceOfSuffix(s, i, |r|, l, r);
  }

  /** Everything after that slice is whitespace. */
  lemma LRBack(s: string)
    ensures var l := LStrip(s); var r := RStripSpace(l); var i := |s| - |l|;
      forall k :: i + |r| <= k < |s| ==> IsSpace(s[k])
  {
    var l := LStrip(s);
    var r := RStripSpace(l);
    var i := |s| - |l|;
    RStripRemovesSpace(l);
    SuffixTail(s, i, l, |r|, IsSpace);
  }

  /** `rstrip()` of `lstrip()`'s result is empty exactly for blank text. */
  lemma LRBlank(s: string)
    ensures RStripSpace(LStrip(s)) == "" <==> Blank(s)
  {
    var r := RStripSpace(LStrip(s));
    var i := |s| - |LStrip(s)|;
    LRTrims(s);
    if r != "" {
      assert s[i] == r[0];
    }
  }

  /** `lstrip()` removes only whitespace. */
  lemma {:induction false} LStripRemovesSpace(s: string)
    ensures forall k :: 0 <= k < |s| - |LStrip(s)| ==> IsSpace(s[k])
    decreases |s|
  {
    if |s| > 0 && IsSpace(s[0]) {
      LStripRemovesSpace(s[1..]);
      assert forall k :: 1 <= k < |s| ==> s[1..][k - 1] == s[k];
    }
  }

  /** `rstrip()` removes only whitespace. */
  lemma {:induction false} RStripRemovesSpace(s: string)
    ensures forall k :: |RStripSpace(s)| <= k < |s| ==> IsSpace(s[k])
    decreases |s|
  {
    if |s| > 0 && IsSpace(s[|s| - 1]) {
      RStripRemovesSpace(s[..|s| - 1]);
      assert forall k :: 0 <= k < |s| - 1 ==> s[..|s| - 1][k] == s[k];
    }
  }

  /** A string with non-blank ends keeps exactly itself between whitespace padding. */
  lemma StripPadded(w1: string, x: string, w2: string)
    requires 1 <= |x| && !IsSpace(x[0]) && !IsSpace(x[|x| - 1])
    requires Blank(w1) && Blank(w2)
    ensures Strip(w1 + x + w2) == x
  {
    StripIsLR(w1 + x + w2);
    assert (x + w2)[0] == x[0];
    LStripPadded(w1, x + w2);
    RStripPadded(x, w2);
    ConcatAssoc(w1, x, w2);
  }

  /** `lstrip()` removes exactly the whitespace before a non-space start. */
  lemma {:induction false} LStripPadded(w: string, y: string)
    requires Blank(w) && 1 <= |y| && !IsSpace(y[0])
    ensures LStrip(w + y) == y
    decreases |w|
  {
    var s := w + y;
    if |w| > 0 {
      assert s[0] == w[0] && s[1..] == w[1..] + y;
      LStripPadded(w[1..], y);
    } else {
      assert s == y;
    }
  }

  /** `rstrip()` removes exactly the whitespace after a non-space end. */
  lemma {:induction false} RStripPadded(y: string, w: string)
    requires Blank(w) && 1 <= |y| && !IsSpace(y[|y| - 1])
    ensures RStripSpace(y + w) == y
    decreases |w|
  {
    var s := y + w;
    if |w| > 0 {
      assert s[|s| - 1] == w[|w| - 1] && s[..|s| - 1] == y + w[..|w| - 1];
      RStripPadded(y, w[..|w| - 1]);
    } else {
      assert s == y;
    }
  }

  /** A character `strip()` keeps at an end of the text. */
  predicate NotSpace(ch: char)
  {
    !IsSpace(ch)
  }

  /** An ASCII decimal digit, the only digits the model's `int()` accepts. */
  predicate IsDigit(ch: char)
  {
    '0' <= ch <= '9'
  }

  /** The ASCII character of the decimal digit `d`. */
  function DigitChar(d: nat): (ch: char)
    requires d < 10
    ensures IsDigit(ch) && ch as int - '0' as int == d
  {
    ('0' as int + d) as char
  }

  /** The decimal digits of `n`. */
  function FormatNat(n: nat): (r: string)
    ensures 1 <= |r|
    ensures forall i :: 0 <= i < |r| ==> IsDigit(r[i])
  {
    if n < 10 then [DigitChar(n)] else FormatNat(n / 10) + [DigitChar(n % 10)]
  }

  /** Python's `'%d' % n`: the decimal digits of `n`, after a `-` when it is negative. */
  function FormatInt(n: int): (r: string)
    ensures 1 <= |r|
    ensures r[0] == '-' <==> n < 0
    ensures IsDigit(r[|r| - 1])
    ensures forall i :: 0 <= i < |r| ==> IsDigit(r[i]) || (i == 0 && r[i] == '-')
  {
    if n < 0 then "-" + FormatNat(-n) else FormatNat(n)
  }

  /** The value of a non-empty run of decimal digits, or None. */
  function ParseDigits(s: string): (r: Option<nat>)
    ensures r.Some? <==> 1 <= |s| && forall i :: 0 <= i < |s| ==> IsDigit(s[i])
  {
    if |s| == 0 || !IsDigit(s[|s| - 1]) then None
    else
      var d := s[|s| - 1] as int - '0' as int;
      if |s| == 1 then Some(d)
      else match ParseDigits(s[..|s| - 1])
        case None =>
          assert forall i :: 0 <= i < |s| - 1 ==> s[..|s| - 1][i] == s[i];
          None
        case Some(v) => Some(v * 10 + d)
  }

  /**
   * Python's `int(s)` for a string: surrounding whitespace, an optional
   * sign and at least one decimal digit; None where Python raises
   * `ValueError`.
   */
  function ParseInt(s: string): (r: Option<int>)
    ensures r.Some? ==> 1 <= |Strip(s)|
  {
    ParseSigned(Strip(s))
  }

  /** `int()` of text without surrounding whitespace: an optional sign, then at least one decimal digit. */
  function ParseSigned(t: string): (r: Option<int>)
    ensures r.Some? ==> 1 <= |t|
  {
    if |t| > 0 && (t[0] == '-' || t[0] == '+') then
      match ParseDigits(t[1..])
      case None => None
      case Some(v) =>
        var n: int := v;
        Some(if t[0] == '-' then -n else n)
    else
      match ParseDigits(t)
      case None => None
      case Some(v) => Some(v)
  }

  /**
   * `int()` accepts exactly the text that, once stripped, is a run of
   * decimal digits with an optional `+` or `-` before it.
   */
  lemma ParseIntAccepts(s: string)
    ensures ParseInt(s).Some? <==> var t := Strip(s);
      1 <= |t| && ParseDigits(if t[0] == '-' || t[0] == '+' then t[1..] else t).Some?
  {
    assert ParseInt(s) == ParseSigned(Strip(s));
  }

  /** `int()` reads back the digits `'%d'` writes for a natural number. */
  lemma {:induction false} ParseFormatNat(n: nat)
    ensures ParseDigits(FormatNat(n)) == Some(n)
  {
    if n >= 10 {
      var s := FormatNat(n);
      ParseFormatNat(n / 10);
      assert s[..|s| - 1] == FormatNat(n / 10);
    }
  }

  /** `10` to the power `n`. */
  function Pow10(n: nat): (r: nat)
    ensures r >= 1
  {
    if n == 0 then 1 else 10 * Pow10(n - 1)
  }

  /** The value of a decimal digit character, and zero for any other character. */
  function DigitOf(ch: char): (d: nat)
    ensures d < 10
  {
    if IsDigit(ch) then ch as int - '0' as int else 0
  }

  /** The positional value of a run of digits, read from its most significant digit. */
  function DigitsValue(s: string): nat
  {
    if |s| == 0 then 0 else DigitOf(s[0]) * Pow10(|s| - 1) + DigitsValue(s[1..])
  }

  /** A digit after a run multiplies the run's value by ten and adds its own. */
  lemma {:induction false} DigitsValueAppend(p: string, d: char)
    ensures DigitsValue(p + [d]) == DigitsValue(p) * 10 + DigitOf(d)
    decreases |p|
  {
    if |p| > 0 {
      var q := p + [d];
      assert q[0] == p[0] && q[1..] == p[1..] + [d];
      DigitsValueAppend(p[1..], d);
      var head := DigitOf(p[0]);
      assert head * Pow10(|p|) == head * Pow10(|p| - 1) * 10;
    } else {
      assert (p + [d])[1..] == [];
    }
  }

  /** `int()` of any run of decimal digits is its positional value, leading zeros and all. */
  lemma {:induction false} ParseDigitsValue(s: string)
    requires 1 <= |s| && forall i :: 0 <= i < |s| ==> IsDigit(s[i])
    ensures ParseDigits(s) == Some(DigitsValue(s))
    decreases |s|
  {
    var init := s[..|s| - 1];
    assert s == init + [s[|s| - 1]];
    DigitsValueAppend(init, s[|s| - 1]);
    if |s| > 1 {
      ParseDigitsValue(init);
    }
  }

  /** Zeros in front of a run do not change its positional value. */
  lemma {:induction false} ZerosValue(k: nat, s: string)
    ensures DigitsValue(Repeat('0', k) + s) == DigitsValue(s)
    decreases k
  {
    var t := Repeat('0', k) + s;
    if k > 0 {
      assert t[0] == '0' && t[1..] == Repeat('0', k - 1) + s;
      ZerosValue(k - 1, s);
    } else {
      assert t == s;
    }
  }

  /** Zeros in front of a digit run do not change what it reads as, or whether it reads at all. */
  lemma ParseLeadingZeros(k: nat, s: string)
    requires 1 <= |s|
    ensures ParseDigits(Repeat('0', k) + s) == ParseDigits(s)
  {
    var t := Repeat('0', k) + s;
    if forall i :: 0 <= i < |s| ==> IsDigit(s[i]) {
      forall i | 0 <= i < |t|
        ensures IsDigit(t[i])
      {
        if i >= k {
          assert t[i] == s[i - k];
        }
      }
      ParseDigitsValue(s);
      ParseDigitsValue(t);
      ZerosValue(k, s);
    } else {
      var j :| 0 <= j < |s| && !IsDigit(s[j]);
      assert t[k + j] == s[j];
    }
  }

  /** `int()` of zero-padded digits: `int('007') == 7`. */
  lemma ParseIntZeroPadded(k: nat, n: nat)
    ensures ParseInt(Repeat('0', k) + FormatNat(n)) == Some(n)
  {
    var digits := Repeat('0', k) + FormatNat(n);
    ZeroPaddedDigits(k, n, digits);
    StripKeeps(digits);
    assert IsDigit(digits[0]) && ParseSigned(digits) == Some(n);
    assert ParseInt(digits) == ParseSigned(digits);
  }

  /** `int()` of zero-padded digits after a `-`: `int('-007') == -7` and `int('-0') == 0`. */
  lemma ParseIntNegativeZeroPadded(k: nat, n: nat)
    ensures ParseInt("-" + Repeat('0', k) + FormatNat(n)) == Some(-(n as int))
  {
    var digits := Repeat('0', k) + FormatNat(n);
    ZeroPaddedDigits(k, n, digits);
    ConcatAssoc("-", Repeat('0', k), FormatNat(n));
    ParseNegative(digits, n);
  }

  /** `int()` of a `-` before digits reading as `n` is `-n`. */
  lemma ParseNegative(digits: string, n: nat)
    requires 1 <= |digits| && !IsSpace(digits[|digits| - 1]) && ParseDigits(digits) == Some(n)
    ensures ParseInt("-" + digits) == Some(-(n as int))
  {
    StripNegative(digits);
    SignedNegative(digits, n);
  }

  /** `strip()` keeps a `-` before text that does not end in whitespace. */
  lemma StripNegative(digits: string)
    requires 1 <= |digits| && !IsSpace(digits[|digits| - 1])
    ensures Strip("-" + digits) == "-" + digits
  {
    var signed := "-" + digits;
    assert 1 <= |signed| && NotSpace(signed[0]) && NotSpace(signed[|signed| - 1]) by {
      EndsOfConcat("-", digits, NotSpace);
    }
    StripKeeps(signed);
  }

  /** A `-` before digits reading as `n` reads as `-n` once stripped. */
  lemma SignedNegative(digits: string, n: nat)
    requires ParseDigits(digits) == Some(n)
    ensures ParseSigned("-" + digits) == Some(-(n as int))
  {
    OneBefore("-", digits);
  }

  /** Zero-padded digits read as their number and have no whitespace at either end. */
  lemma ZeroPaddedDigits(k: nat, n: nat, digits: string)
    requires digits == Repeat('0', k) + FormatNat(n)
    ensures ParseDigits(digits) == Some(n)
    ensures 1 <= |digits| && !IsSpace(digits[0]) && !IsSpace(digits[|digits| - 1])
  {
    ParseLeadingZeros(k, FormatNat(n));
    ParseFormatNat(n);
  }

  /** `int('%d' % n) == n` for every integer `n`. */
  lemma ParseFormatInt(n: int)
    ensures ParseInt(FormatInt(n)) == Some(n)
  {
    StripFormatInt(n);
    ParseSignedFormatInt(n);
  }

  /** The text `'%d'` writes reads back without any stripping. */
  lemma ParseSignedFormatInt(n: int)
    ensures ParseSigned(FormatInt(n)) == Some(n)
  {
    if n < 0 {
      ParseFormatNegative(n);
    } else {
      ParseFormatNat(n);
    }
  }

  /** `'%d'` writes no surrounding whitespace for `strip()` to remove. */
  lemma StripFormatInt(n: int)
    ensures Strip(FormatInt(n)) == FormatInt(n)
  {
    var s := FormatInt(n);
    assert !IsSpace(s[0]) && !IsSpace(s[|s| - 1]);
    StripKeeps(s);
  }

  /** Text that starts and ends with non-space characters survives `strip()` unchanged. */
  lemma StripKeeps(x: string)
    requires 1 <= |x| && NotSpace(x[0]) && NotSpace(x[|x| - 1])
    ensures Strip(x) == x
  {
  }

  /** The digits after the `-` of a negative number's text read back as its magnitude. */
  lemma ParseFormatNegative(n: int)
    requires n < 0
    ensures ParseDigits(FormatInt(n)[1..]) == Some(-n)
  {
    assert FormatInt(n)[1..] == FormatNat(-n);
    ParseFormatNat(-n);
  }

  /** `'%d'` never writes whitespace, so a formatted integer is not blank. */
  lemma FormatIntNotBlank(n: int)
    ensures Strip(FormatInt(n)) == FormatInt(n) != ""
  {
    StripFormatInt(n);
  }

  /** `int()` ignores whitespace around a number: `int(' %d\r\n' % n) == n`. */
  lemma ParsePadded(w1: string, n: int, w2: string)
    requires Blank(w1) && Blank(w2)
    ensures ParseInt(w1 + FormatInt(n) + w2) == Some(n)
  {
    var x := FormatInt(n);
    assert !IsSpace(x[0]) && !IsSpace(x[|x| - 1]);
    StripPadded(w1, x, w2);
    ParseSignedFormatInt(n);
  }

  /** `int()` accepts an explicit `+` before the digits of a natural number. */
  lemma ParsePlus(w1: string, n: nat, w2: string)
    requires Blank(w1) && Blank(w2)
    ensures ParseInt(w1 + ("+" + FormatNat(n)) + w2) == Some(n)
  {
    var x := "+" + FormatNat(n);
    assert Strip(w1 + x + w2) == x by {
      PlusDigitsEnds(n);
      StripPadded(w1, x, w2);
    }
    ParsePlusDigits(n, x, w1 + x + w2);
  }

  /** A `+` and the digits of `n` begin and end with characters `strip()` keeps. */
  lemma PlusDigitsEnds(n: nat)
    ensures var x := "+" + FormatNat(n); !IsSpace(x[0]) && !IsSpace(x[|x| - 1])
  {
    var x := "+" + FormatNat(n);
    assert x[|x| - 1] == FormatNat(n)[|FormatNat(n)| - 1];
  }

  /** The stripped text `+<digits of n>` reads as `n`. */
  lemma ParsePlusDigits(n: nat, x: string, s: string)
    requires x == "+" + FormatNat(n) && Strip(s) == x
    ensures ParseInt(s) == Some(n)
  {
    assert ParseInt(s) == ParseSigned(x);
    assert x[1..] == FormatNat(n);
    ParseFormatNat(n);
  }

}

=== FILE: versions.dfy ===
/**
 * API versions as the client compares them (`distutils`' `StrictVersion`
 * of a `major.minor` token) and the range of versions the client accepts.
 */
module Versions {

  /** A `major.minor` API version. */
  datatype Version = Version(major: nat, minor: nat)

  /** `a < b` between two `StrictVersion`s: by major number, then by minor number. */
  predicate Below(a: Version, b: Version)
  {
    a.major < b.major || (a.major == b.major && a.minor < b.minor)
  }

  /** Oldest API version the client accepts. */
  const OldestSupported := Version(1, 4)

  /** Newest API version the client accepts. */
  const NewestSupported := Version(2, 2)

  /** Whether `connect` accepts a server speaking version `v`: the inclusive range [1.4, 2.2]. */
  function Supported(v: Version): (ok: bool)
    ensures ok <==> (v.major == 1 && v.minor >= 4) || (v.major == 2 && v.minor <= 2)
  {
    !Below(v, OldestSupported) && !Below(NewestSupported, v)
  }

  /** `Below` is a strict total order, so every gate compares versions consistently. */
  lemma BelowIsStrictTotalOrder(a: Version, b: Version, c: Version)
    ensures !Below(a, a)
    ensures Below(a, b) && Below(b, c) ==> Below(a, c)
    ensures a != b ==> Below(a, b) || Below(b, a)
    ensures Below(a, b) ==> !Below(b, a)
  {
  }
}

=== FILE: wire.dfy ===
/**
 * The text format of the Lightpack API as the client reads and writes it:
 * `name:payload` lines, per-LED snippets `index-v1,v2,...` for colours and
 * sizes, `;`-separated lists and comma-separated rectangles.
 */
module Wire {
  import opened Wrappers
  import opened Strings

  /** A colour as the tuple of red, green and blue integers the client sends. */
  datatype Rgb = Rgb(red: int, green: int, blue: int)

  /** An LED or screen area as the tuple of x, y, width and height the client sends. */
  datatype Rect = Rect(x: int, y: int, width: int, height: int)

  /** Part `part` of `s.split(':', 1)`, or None when there is no such part. */
  function CommandPart(s: string, part: nat): (r: Option<string>)
    ensures part == 0 ==> r.Some?
    ensures part == 1 ==> (r.Some? <==> ':' in s)
    ensures part >= 2 ==> r.None?
  {
    var parts := Split(s, ':', 1);
    if part < |parts| then Some(parts[part]) else None
  }

  /** The command name of a command or reply: the text before its first colon. */
  function Name(s: string): (name: string)
    ensures name <= s
    ensures ':' !in name
    ensures ':' !in s ==> name == s
  {
    SplitThenJoin(s, ':', 1);
    CommandPart(s, 0).value
  }

  /** The payload of a command or reply: the text after its first colon, None without one. */
  function Payload(s: string): (p: Option<string>)
    ensures p.None? <==> ':' !in s
    ensures p.Some? ==> s == Name(s) + ":" + p.value
  {
    SplitThenJoin(s, ':', 1);
    CommandPart(s, 1)
  }

  /** A line built as `name:payload` splits back into that name and payload, whatever the payload holds. */
  lemma NameAndPayloadOfLine(name: string, payload: string)
    requires ':' !in name
    ensures Name(name + ":" + payload) == name
    ensures Payload(name + ":" + payload) == Some(payload)
  {
    var s := name + ":" + payload;
    assert s == name + [':'] + payload;
    IndexOfAfter(name, ':', payload);
    assert s[..|name|] == name;
    assert s[|name| + 1..] == payload;
    assert Split(s, ':', 1) == [name, payload];
  }

  /** Python's `'%d'` of each value. */
  function FormatAll(values: seq<int>): seq<string>
  {
    seq(|values|, i requires 0 <= i < |values| => FormatInt(values[i]))
  }

  /** The values of a snippet, `%d` each, comma-separated. */
  function Fields(values: seq<int>): string
  {
    Join(FormatAll(values), ',')
  }

  /** A per-LED snippet `index-v1,v2,...`. */
  function Snippet(index: int, values: seq<int>): string
  {
    FormatInt(index) + "-" + Fields(values)
  }

  /** A colour as its three fields, red first. */
  function RgbFields(rgb: Rgb): seq<int>
  {
    [rgb.red, rgb.green, rgb.blue]
  }

  /** A rectangle as its four fields, as the API orders them. */
  function RectFields(rect: Rect): seq<int>
  {
    [rect.x, rect.y, rect.width, rect.height]
  }

  /**
   * `_ledColourDef`: `'%d-%d,%d,%d'` of an LED's wire index and a colour.
   * It holds no `;` or `:`, so it stays one entry of a `setcolor:` line,
   * and `_ledColourRead` gives back the index and colour when the index
   * is not negative.
   */
  function LedColourDef(index: int, rgb: Rgb): (r: string)
    ensures ';' !in r && ':' !in r
    ensures index >= 0 ==> LedColourRead(r) == Some((index, RgbFields(rgb)))
  {
    var r := Snippet(index, RgbFields(rgb));
    SnippetAvoids(index, RgbFields(rgb), ';');
    SnippetAvoids(index, RgbFields(rgb), ':');
    assert index >= 0 ==> ReadSnippet(r, 2) == Some((index, RgbFields(rgb))) by {
      if index >= 0 {
        SnippetRoundTrip(index, RgbFields(rgb), 2);
      }
    }
    r
  }

  /**
   * `_ledSizeDef`: `'%d-%d,%d,%d,%d'` of an LED's wire index and a
   * rectangle, one entry of a `setleds:` line that `_ledSizeRead` reads
   * back when the index is not negative.
   */
  function LedSizeDef(index: int, rect: Rect): (r: string)
    ensures ';' !in r && ':' !in r
    ensures index >= 0 ==> LedSizeRead(r) == Some((index, RectFields(rect)))
  {
    var r := Snippet(index, RectFields(rect));
    SnippetAvoids(index, RectFields(rect), ';');
    SnippetAvoids(index, RectFields(rect), ':');
    assert index >= 0 ==> ReadSnippet(r, 3) == Some((index, RectFields(rect))) by {
      if index >= 0 {
        SnippetRoundTrip(index, RectFields(rect), 3);
      }
    }
    r
  }

  /** `'%d,%d,%d'` of a colour. */
  function ColourDef(rgb: Rgb): string
  {
    Fields(RgbFields(rgb))
  }

  /** A character that is not a separator of `parts` and in none of them is not in their join. */
  lemma {:induction false} JoinAvoids(parts: seq<string>, sep: char, ch: char)
    requires ch != sep
    requires forall i :: 0 <= i < |parts| ==> ch !in parts[i]
    ensures ch !in Join(parts, sep)
    decreases |parts|
  {
    if |parts| > 1 {
      JoinAvoids(parts[1..], sep, ch);
    }
  }

  /** The only characters of a snippet are digits, `-` and `,`. */
  lemma SnippetAvoids(index: int, values: seq<int>, ch: char)
    requires !IsDigit(ch) && ch != '-' && ch != ','
    ensures ch !in Snippet(index, values)
    ensures ch !in Fields(values)
  {
    JoinAvoids(FormatAll(values), ',', ch);
  }

  /** Splitting the fields of a snippet at commas gives back the `%d` of each value. */
  lemma FieldsSplit(values: seq<int>, maxsplit: nat)
    requires 1 <= |values| <= maxsplit + 1
    ensures Split(Fields(values), ',', maxsplit) == FormatAll(values)
  {
    JoinThenSplit(FormatAll(values), ',', maxsplit);
  }

  /**
   * Python's `snippet.split('-', 1)` unpacked into an LED and its values,
   * then `int()` of each of the values `split(',', maxsplit)` gives and of
   * the LED: `_ledColourRead` with `maxsplit` 2, `_ledSizeRead` with 3.
   * None where Python raises `ValueError`.
   */
  function ReadSnippet(snippet: string, maxsplit: nat): (r: Option<(int, seq<int>)>)
    ensures r.Some? ==> 1 <= |r.value.1| <= maxsplit + 1
    ensures r.Some? ==> '-' in snippet
  {
    var halves := Split(snippet, '-', 1);
    if |halves| != 2 then None
    else
      match AllOf(Split(halves[1], ',', maxsplit), ParseInt)
      case None => None
      case Some(values) =>
        match ParseInt(halves[0])
        case None => None
        case Some(led) => Some((led, values))
  }

  /** `_ledColourRead`: an LED number and up to three colour values. */
  function LedColourRead(snippet: string): (r: Option<(int, seq<int>)>)
    ensures r.Some? ==> 1 <= |r.value.1| <= 3
  {
    ReadSnippet(snippet, 2)
  }

  /** `_ledSizeRead`: an LED number and up to four coordinates. */
  function LedSizeRead(snippet: string): (r: Option<(int, seq<int>)>)
    ensures r.Some? ==> 1 <= |r.value.1| <= 4
  {
    ReadSnippet(snippet, 3)
  }

  /** `int()` of each `'%d'` text gives back the values. */
  lemma ParseAll(values: seq<int>)
    ensures AllOf(FormatAll(values), ParseInt) == Some(values)
  {
    var texts := FormatAll(values);
    forall i | 0 <= i < |texts|
      ensures ParseInt(texts[i]) == Some(values[i])
    {
      ParseFormatInt(values[i]);
    }
    var read := AllOf(texts, ParseInt);
    assert read.value == values;
  }

  /** Reading a snippet written for a non-negative index gives back that index and those values. */
  lemma SnippetRoundTrip(index: int, values: seq<int>, maxsplit: nat)
    requires index >= 0
    requires 1 <= |values| <= maxsplit + 1
    ensures ReadSnippet(Snippet(index, values), maxsplit) == Some((index, values))
  {
    var head := FormatInt(index);
    var tail := Fields(values);
    var s := Snippet(index, values);
    assert s == head + ['-'] + tail;
    assert '-' !in head;
    IndexOfAfter(head, '-', tail);
    assert s[..|head|] == head;
    assert s[|head| + 1..] == tail;
    assert Split(s, '-', 1) == [head, tail];
    FieldsSplit(values, maxsplit);
    ParseAll(values);
    ParseFormatInt(index);
  }

  /**
   * A snippet reads back exactly when its LED index is not negative: a
   * negative index puts a `-` first, and the text before it is empty.
   */
  lemma SnippetReadableIff(index: int, values: seq<int>, maxsplit: nat)
    requires 1 <= |values| <= maxsplit + 1
    ensures ReadSnippet(Snippet(index, values), maxsplit).Some? <==> index >= 0
  {
    if index >= 0 {
      SnippetRoundTrip(index, values, maxsplit);
    } else {
      var s := Snippet(index, values);
      assert s == [] + ['-'] + s[1..];
      IndexOfAfter([], '-', s[1..]);
      assert Split(s, '-', 1)[0] == "";
    }
  }

  /** The colour snippet of a non-negative LED index reads back as that index and its three values. */
  lemma LedColourRoundTrip(index: int, rgb: Rgb)
    requires index >= 0
    ensures LedColourRead(LedColourDef(index, rgb)) == Some((index, [rgb.red, rgb.green, rgb.blue]))
  {
    SnippetRoundTrip(index, RgbFields(rgb), 2);
  }

  /** The size snippet of a non-negative LED index reads back as that index and its four coordinates. */
  lemma LedSizeRoundTrip(index: int, rect: Rect)
    requires index >= 0
    ensures LedSizeRead(LedSizeDef(index, rect)) == Some((index, [rect.x, rect.y, rect.width, rect.height]))
  {
    SnippetRoundTrip(index, RectFields(rect), 3);
  }

  /** `payload.rstrip(';').split(';')`: the entries of a `;`-separated list reply. */
  function ListEntries(payload: string): (entries: seq<string>)
    ensures 1 <= |entries|
    ensures forall i :: 0 <= i < |entries| ==> ';' !in entries[i]
  {
    Split(RStrip(payload, ';'), ';', -1)
  }

  /**
   * A list written as its items joined by `;`, with any number of `;`
   * after it, reads back as those items.
   */
  lemma ListEntriesRoundTrip(items: seq<string>, trailing: nat)
    requires 1 <= |items|
    requires forall i :: 0 <= i < |items| ==> ';' !in items[i]
    requires 1 <= |items[|items| - 1]|
    ensures ListEntries(Join(items, ';') + Repeat(';', trailing)) == items
  {
    var joined := Join(items, ';');
    JoinEndsWithLastPart(items, ';');
    RStripAppended(joined, ';', trailing);
    JoinThenSplit(items, ';', -1);
  }

  /** A reply with an empty list, `""` or only `;`, reads as one empty entry. */
  lemma EmptyListEntries(trailing: nat)
    ensures ListEntries(Repeat(';', trailing)) == [""]
  {
    RStripAppended("", ';', trailing);
    assert "" + Repeat(';', trailing) == Repeat(';', trailing);
    assert Split("", ';', -1) == [""];
  }

  /** A dictionary filled from `entries` in order, as `d[k] = v` in a loop. */
  function ToMap<V>(entries: seq<(int, V)>): map<int, V>
  {
    if |entries| == 0 then map[]
    else
      var last := entries[|entries| - 1];
      ToMap(entries[..|entries| - 1])[last.0 := last.1]
  }

  /** The keys of the dictionary are the keys of the entries. */
  lemma {:induction false} ToMapKeys<V>(entries: seq<(int, V)>)
    ensures ToMap(entries).Keys == set i | 0 <= i < |entries| :: entries[i].0
  {
    if |entries| > 0 {
      var prefix := entries[..|entries| - 1];
      ToMapKeys(prefix);
      assert forall i :: 0 <= i < |prefix| ==> prefix[i] == entries[i];
      assert (set i | 0 <= i < |entries| :: entries[i].0)
          == (set i | 0 <= i < |prefix| :: prefix[i].0) + {entries[|entries| - 1].0};
    }
  }

  /** A key maps to the value of its last entry: a later entry for the same LED wins. */
  lemma {:induction false} ToMapLastWins<V>(entries: seq<(int, V)>, i: nat)
    requires i < |entries|
    requires forall j :: i < j < |entries| ==> entries[j].0 != entries[i].0
    ensures entries[i].0 in ToMap(entries)
    ensures ToMap(entries)[entries[i].0] == entries[i].1
  {
    if i < |entries| - 1 {
      var prefix := entries[..|entries| - 1];
      assert prefix[i] == entries[i];
      ToMapLastWins(prefix, i);
    }
  }

  /** A property every entry's value has, every value of the dictionary has. */
  lemma {:induction false} ToMapAll<V>(entries: seq<(int, V)>, p: V -> bool)
    requires forall i :: 0 <= i < |entries| ==> p(entries[i].1)
    ensures forall k :: k in ToMap(entries) ==> p(ToMap(entries)[k])
  {
    if |entries| > 0 {
      var prefix := entries[..|entries| - 1];
      assert forall i :: 0 <= i < |prefix| ==> prefix[i] == entries[i];
      ToMapAll(prefix, p);
    }
  }

  /** The snippets of `(index, values)` entries, in order. */
  function Snippets(entries: seq<(int, seq<int>)>): seq<string>
  {
    seq(|entries|, i requires 0 <= i < |entries| => Snippet(entries[i].0, entries[i].1))
  }

  /**
   * The entries read from `snippets`, in order, up to the first snippet
   * that does not read: what a loop of `_ledColourRead`/`_ledSizeRead` has
   * produced when it finishes or raises.
   */
  function ReadWhile<T>(snippets: seq<string>, read: string -> Option<T>): (entries: seq<T>)
    ensures |entries| <= |snippets|
    ensures forall i :: 0 <= i < |entries| ==> read(snippets[i]) == Some(entries[i])
    ensures |entries| < |snippets| ==> read(snippets[|entries|]).None?
  {
    if |snippets| == 0 then []
    else match read(snippets[0])
      case None => []
      case Some(e) =>
        var rest := ReadWhile(snippets[1..], read);
        assert forall i :: 0 <= i < |rest| ==> snippets[1..][i] == snippets[i + 1];
        [e] + rest
  }

  /** The reading of one snippet with `maxsplit` as a function value. */
  function SnippetReader(maxsplit: nat): string -> Option<(int, seq<int>)>
  {
    snippet => ReadSnippet(snippet, maxsplit)
  }

  /**
   * A `;`-separated list of snippets read into a dictionary from LED number
   * to values, or None when one of them does not read (`ValueError`).
   */
  function ParseLedList(payload: string, maxsplit: nat): (r: Option<map<int, seq<int>>>)
    ensures r.Some? <==> forall i :: 0 <= i < |ListEntries(payload)| ==> ReadSnippet(ListEntries(payload)[i], maxsplit).Some?
    ensures r.Some? ==> forall k :: k in r.value ==> 1 <= |r.value[k]| <= maxsplit + 1
  {
    var snippets := ListEntries(payload);
    var entries := ReadWhile(snippets, SnippetReader(maxsplit));
    if |entries| == |snippets| then
      ToMapAll(entries, values => 1 <= |values| <= maxsplit + 1);
      Some(ToMap(entries))
    else
      None
  }

  /**
   * The loop of `getColoursFromAll`: a dictionary from LED number to one
   * to three colour values, or None (`ValueError`) exactly when an entry
   * of the list does not read.
   */
  function ParseColours(payload: string): (r: Option<map<int, seq<int>>>)
    ensures r.Some? <==> forall i :: 0 <= i < |ListEntries(payload)| ==> LedColourRead(ListEntries(payload)[i]).Some?
    ensures r.Some? ==> forall k :: k in r.value ==> 1 <= |r.value[k]| <= 3
  {
    ParseLedList(payload, 2)
  }

  /**
   * The loop of `getLedSizes`: a dictionary from LED number to one to four
   * coordinates, or None (`ValueError`) exactly when an entry of the list
   * does not read.
   */
  function ParseLedSizes(payload: string): (r: Option<map<int, seq<int>>>)
    ensures r.Some? <==> forall i :: 0 <= i < |ListEntries(payload)| ==> LedSizeRead(ListEntries(payload)[i]).Some?
    ensures r.Some? ==> forall k :: k in r.value ==> 1 <= |r.value[k]| <= 4
  {
    ParseLedList(payload, 3)
  }

  /** Every snippet of a list reads back as the entry it was written from. */
  lemma SnippetsRoundTrip(entries: seq<(int, seq<int>)>, maxsplit: nat)
    requires forall i :: 0 <= i < |entries| ==> entries[i].0 >= 0
    requires forall i :: 0 <= i < |entries| ==> 1 <= |entries[i].1| <= maxsplit + 1
    ensures ReadWhile(Snippets(entries), SnippetReader(maxsplit)) == entries
  {
    var snippets := Snippets(entries);
    forall i | 0 <= i < |snippets|
      ensures ReadSnippet(snippets[i], maxsplit) == Some(entries[i])
    {
      SnippetRoundTrip(entries[i].0, entries[i].1, maxsplit);
    }
    var read := ReadWhile(snippets, SnippetReader(maxsplit));
    assert |read| == |snippets|;
    assert read == entries;
  }

  /** A list of snippets joined by `;` splits back into those snippets. */
  lemma SnippetListSplits(entries: seq<(int, seq<int>)>, trailing: nat)
    requires 1 <= |entries|
    requires forall i :: 0 <= i < |entries| ==> entries[i].0 >= 0
    ensures ListEntries(Join(Snippets(entries), ';') + Repeat(';', trailing)) == Snippets(entries)
  {
    var snippets := Snippets(entries);
    forall i | 0 <= i < |snippets|
      ensures ';' !in snippets[i]
    {
      SnippetAvoids(entries[i].0, entries[i].1, ';');
    }
    ListEntriesRoundTrip(snippets, trailing);
  }

  /**
   * A list of snippets for non-negative LED indices, joined by `;` and
   * followed by any number of `;`, reads back as the dictionary of those
   * entries (a later entry for the same LED wins).
   */
  lemma LedListRoundTrip(entries: seq<(int, seq<int>)>, maxsplit: nat, trailing: nat)
    requires 1 <= |entries|
    requires forall i :: 0 <= i < |entries| ==> entries[i].0 >= 0
    requires forall i :: 0 <= i < |entries| ==> 1 <= |entries[i].1| <= maxsplit + 1
    ensures ParseLedList(Join(Snippets(entries), ';') + Repeat(';', trailing), maxsplit) == Some(ToMap(entries))
  {
    SnippetListSplits(entries, trailing);
    SnippetsRoundTrip(entries, maxsplit);
  }

  /** The first LED of the `getcolors` docstring example, as its snippet. */
  lemma FirstExampleSnippet()
    ensures Snippet(1, [10, 20, 30]) == "1-10,20,30"
  {
    assert FormatInt(10) == "10" && FormatInt(20) == "20" && FormatInt(30) == "30";
    ThreeFields(10, 20, 30);
    assert FormatInt(1) == "1";
  }

  /** The second LED of the `getcolors` docstring example, as its snippet. */
  lemma SecondExampleSnippet()
    ensures Snippet(2, [40, 50, 60]) == "2-40,50,60"
  {
    assert FormatInt(40) == "40" && FormatInt(50) == "50" && FormatInt(60) == "60";
    ThreeFields(40, 50, 60);
    assert FormatInt(2) == "2";
  }

  /** Three values as their fields: each `'%d'`, with a comma between. */
  lemma ThreeFields(x: int, y: int, z: int)
    ensures Fields([x, y, z]) == FormatInt(x) + "," + FormatInt(y) + "," + FormatInt(z)
  {
    var a, b, c := FormatInt(x), FormatInt(y), FormatInt(z);
    var texts := FormatAll([x, y, z]);
    assert texts == [a, b, c];
    assert texts[1..] == [b, c] && texts[1..][1..] == [c];
    assert Join(texts[1..][1..], ',') == c;
    assert Join(texts[1..], ',') == b + [','] + c;
    assert Join(texts, ',') == a + [','] + (b + [','] + c);
    ConcatAssoc(a + [','], b + [','], c);
    ConcatAssoc(a + [','], b, [',']);
  }

  /** The `getcolors` reply of two LEDs reads as the dictionary of their colours. */
  lemma GetColorsExample()
    ensures ParseColours("1-10,20,30" + ";" + "2-40,50,60" + ";") == Some(map[1 := [10, 20, 30], 2 := [40, 50, 60]])
  {
    var entries := [(1, [10, 20, 30]), (2, [40, 50, 60])];
    ExampleColoursText(entries);
    ExampleEntries(entries);
    LedListRoundTrip(entries, 2, 1);
  }

  /** The example's entries have non-negative LEDs and three values each, and make the documented dictionary. */
  lemma ExampleEntries(entries: seq<(int, seq<int>)>)
    requires entries == [(1, [10, 20, 30]), (2, [40, 50, 60])]
    ensures 1 <= |entries|
    ensures forall i :: 0 <= i < |entries| ==> entries[i].0 >= 0
    ensures forall i :: 0 <= i < |entries| ==> 1 <= |entries[i].1| <= 3
    ensures ToMap(entries) == map[1 := [10, 20, 30], 2 := [40, 50, 60]]
  {
    assert entries[..1] == [(1, [10, 20, 30])] && entries[..1][..0] == [];
    assert ToMap(entries[..1]) == map[1 := [10, 20, 30]];
  }

  /** The example's two snippets joined and ended by `;` are the documented reply text. */
  lemma ExampleColoursText(entries: seq<(int, seq<int>)>)
    requires entries == [(1, [10, 20, 30]), (2, [40, 50, 60])]
    ensures Join(Snippets(entries), ';') + Repeat(';', 1) == "1-10,20,30" + ";" + "2-40,50,60" + ";"
  {
    ExampleSnippets(entries);
    assert Join(["1-10,20,30", "2-40,50,60"], ';') == "1-10,20,30" + ";" + "2-40,50,60";
    assert Repeat(';', 1) == ";";
  }

  /** The example's two LEDs write the documented snippets. */
  lemma ExampleSnippets(entries: seq<(int, seq<int>)>)
    requires entries == [(1, [10, 20, 30]), (2, [40, 50, 60])]
    ensures Snippets(entries) == ["1-10,20,30", "2-40,50,60"]
  {
    FirstExampleSnippet();
    SecondExampleSnippet();
  }

  /** Text that `strip()` does not empty, which a comprehension's `if x.strip()` keeps. */
  predicate Filled(x: string)
  {
    Strip(x) != ""
  }

  /** The parts of `parts` that are not blank, in order (`if x.strip()` in a comprehension). */
  function NonBlank(parts: seq<string>): (kept: seq<string>)
    ensures |kept| <= |parts|
    ensures forall i :: 0 <= i < |kept| ==> Filled(kept[i])
    ensures (forall i :: 0 <= i < |parts| ==> Filled(parts[i])) ==> kept == parts
    ensures forall x :: x in kept <==> x in parts && Filled(x)
  {
    if |parts| == 0 then []
    else
      var head := if Filled(parts[0]) then [parts[0]] else [];
      var rest := NonBlank(parts[1..]);
      FilterConsMembers(parts, Filled, head, rest);
      FilterConsKeeps(parts, Filled, head, rest);
      head + rest
  }

  /** Membership in a filter's result, one step of its recursion. */
  lemma FilterConsMembers<T>(parts: seq<T>, keep: T -> bool, head: seq<T>, rest: seq<T>)
    requires 1 <= |parts| && head == (if keep(parts[0]) then [parts[0]] else [])
    requires forall x :: x in rest <==> x in parts[1..] && keep(x)
    ensures forall x :: x in head + rest <==> x in parts && keep(x)
  {
    assert forall x :: x in parts <==> x == parts[0] || x in parts[1..];
  }

  /** What a filter keeps and when it keeps everything, one step of its recursion. */
  lemma FilterConsKeeps<T>(parts: seq<T>, keep: T -> bool, head: seq<T>, rest: seq<T>)
    requires 1 <= |parts| && head == (if keep(parts[0]) then [parts[0]] else [])
    requires forall i :: 0 <= i < |rest| ==> keep(rest[i])
    requires (forall i :: 1 <= i < |parts| ==> keep(parts[i])) ==> rest == parts[1..]
    ensures forall i :: 0 <= i < |head + rest| ==> keep((head + rest)[i])
    ensures (forall i :: 0 <= i < |parts| ==> keep(parts[i])) ==> head + rest == parts
  {
    var kept := head + rest;
    forall i | 0 <= i < |kept|
      ensures keep(kept[i])
    {
      if i < |head| {
        assert kept[i] == parts[0];
      } else {
        assert kept[i] == rest[i - |head|];
      }
    }
    if forall i :: 0 <= i < |parts| ==> keep(parts[i]) {
      assert head == [parts[0]] && rest == parts[1..];
      HeadTail(parts);
    }
  }

  /** Filtering keeps order: the non-blank parts of `a + b` are those of `a`, then those of `b`. */
  lemma {:induction false} NonBlankAppend(a: seq<string>, b: seq<string>)
    ensures NonBlank(a + b) == NonBlank(a) + NonBlank(b)
  {
    if |a| == 0 {
      assert a + b == b;
    } else {
      var head := if Strip(a[0]) != "" then [a[0]] else [];
      ConsAppend(a, b);
      assert NonBlank(a + b) == head + NonBlank(a[1..] + b);
      NonBlankAppend(a[1..], b);
      ConcatAssoc(head, NonBlank(a[1..]), NonBlank(b));
    }
  }

  /** `[int(x) for x in text.split(',', maxsplit) if x.strip()]`, None on `ValueError`. */
  function ReadNumbers(text: string, maxsplit: nat): (r: Option<seq<int>>)
    ensures r.Some? ==> |r.value| <= maxsplit + 1
  {
    AllOf(NonBlank(Split(text, ',', maxsplit)), ParseInt)
  }

  /** Numbers written as `%d,%d,...` read back as themselves. */
  lemma ReadNumbersRoundTrip(values: seq<int>, maxsplit: nat)
    requires 1 <= |values| <= maxsplit + 1
    ensures ReadNumbers(Fields(values), maxsplit) == Some(values)
  {
    FieldsSplit(values, maxsplit);
    var texts := FormatAll(values);
    forall i | 0 <= i < |texts|
      ensures Strip(texts[i]) != ""
    {
      FormatIntNotBlank(values[i]);
    }
    assert NonBlank(texts) == texts;
    ParseAll(values);
  }

  /** A rectangle reply (`getscreensize`, `getsizemonitor`): up to four integers. */
  function ReadRectangle(payload: string): (r: Option<seq<int>>)
    ensures r.Some? ==> |r.value| <= 4
  {
    ReadNumbers(payload, 3)
  }

  /** `ReadNumbers` of one colour, as the reader of each half of a sound-visualisation reply. */
  function ColourReader(): string -> Option<seq<int>>
  {
    part => ReadNumbers(part, 2)
  }

  /**
   * The `getsoundvizcolors` payload `r,g,b;r,g,b`: the two colours, or None
   * when there are not two or a value is not an integer.
   */
  function ReadSoundVizColours(payload: string): (r: Option<(seq<int>, seq<int>)>)
    ensures r.Some? ==> |r.value.0| <= 3 && |r.value.1| <= 3
  {
    match AllOf(Split(payload, ';', 1), ColourReader())
    case None => None
    case Some(colours) =>
      if |colours| != 2 then None
      else
        assert ReadNumbers(Split(payload, ';', 1)[0], 2) == Some(colours[0]);
        assert ReadNumbers(Split(payload, ';', 1)[1], 2) == Some(colours[1]);
        Some((colours[0], colours[1]))
  }

  /** The payload `setsoundvizcolors` writes splits at its one `;` into the two colours. */
  lemma SoundVizPayloadSplits(low: Rgb, high: Rgb)
    ensures Split(ColourDef(low) + ";" + ColourDef(high), ';', 1) == [ColourDef(low), ColourDef(high)]
  {
    var a := ColourDef(low);
    var b := ColourDef(high);
    SnippetAvoids(0, RgbFields(low), ';');
    SnippetAvoids(0, RgbFields(high), ';');
    JoinThenSplit([a, b], ';', 1);
    assert Join([a, b], ';') == a + ";" + b;
  }

  /** The two colours `setsoundvizcolors` writes read back through `getsoundvizcolors`' parsing. */
  lemma SoundVizColoursRoundTrip(low: Rgb, high: Rgb)
    ensures ReadSoundVizColours(ColourDef(low) + ";" + ColourDef(high)) == Some((RgbFields(low), RgbFields(high)))
  {
    SoundVizPayloadSplits(low, high);
    ColourReaderReads(low);
    ColourReaderReads(high);
    ReadTwoColours(ColourDef(low) + ";" + ColourDef(high), ColourDef(low), ColourDef(high), RgbFields(low), RgbFields(high));
  }

  /** A payload that splits at its first `;` into two readable colours reads as those two. */
  lemma ReadTwoColours(payload: string, a: string, b: string, x: seq<int>, y: seq<int>)
    requires Split(payload, ';', 1) == [a, b]
    requires ColourReader()(a) == Some(x) && ColourReader()(b) == Some(y)
    ensures ReadSoundVizColours(payload) == Some((x, y))
  {
    AllOfPair(a, b, ColourReader(), x, y);
  }

  /** One colour written as `%d,%d,%d` reads back through the sound-visualisation reader. */
  lemma ColourReaderReads(rgb: Rgb)
    ensures ColourReader()(ColourDef(rgb)) == Some(RgbFields(rgb))
  {
    ReadNumbersRoundTrip(RgbFields(rgb), 2);
  }

  /** A rectangle written as `%d,%d,%d,%d` reads back as its four coordinates. */
  lemma RectangleRoundTrip(rect: Rect)
    ensures ReadRectangle(Fields(RectFields(rect))) == Some(RectFields(rect))
  {
    ReadNumbersRoundTrip(RectFields(rect), 3);
  }
}

=== FILE: wrappers.dfy ===
/**
 * The failure-carrying values the client model returns: `Option` where the
 * Python code answers `None`, `Result` where it raises.
 */
module Wrappers {

  /** A value that may be absent, as Python's `None`. */
  datatype Option<+T> = None | Some(value: T)

  /** Either a value or the error the Python code would raise. */
  datatype Result<+T, +E> = Ok(value: T) | Err(error: E) {

    /** The value, or None for an error: a caught exception that makes the method return `None`. */
    function ToOption(): (o: Option<T>)
      ensures o.Some? <==> Ok?
      ensures o.Some? ==> o.value == value
    {
      match this
      case Ok(v) => Some(v)
      case Err(_) => None
    }
  }

  /**
   * Applies `f` to every element and collects the results, failing as soon
   * as one application fails: a list comprehension whose body may raise.
   */
  function AllOf<A, B>(xs: seq<A>, f: A -> Option<B>): (r: Option<seq<B>>)
    ensures r.Some? <==> forall i :: 0 <= i < |xs| ==> f(xs[i]).Some?
    ensures r.Some? ==> |r.value| == |xs|
    ensures r.Some? ==> forall i :: 0 <= i < |xs| ==> f(xs[i]) == Some(r.value[i])
  {
    if |xs| == 0 then Some([])
    else match f(xs[0])
      case None => None
      case Some(y) =>
        match AllOf(xs[1..], f)
        case None => None
        case Some(ys) => Some([y] + ys)
  }

  /** Two elements that both convert give the list of their two results. */
  lemma AllOfPair<A, B>(a: A, b: A, f: A -> Option<B>, x: B, y: B)
    requires f(a) == Some(x) && f(b) == Some(y)
    ensures AllOf([a, b], f) == Some([x, y])
  {
    var none: seq<A> := [];
    assert AllOf(none, f) == Some([]);
    assert [b][1..] == none && [y] + [] == [y];
    assert AllOf([b], f) == Some([y]);
    assert [a, b][1..] == [b] && [x] + [y] == [x, y];
  }

  /** The head and tail of `a + b` for a non-empty `a`. */
  lemma ConsAppend<T>(a: seq<T>, b: seq<T>)
    requires 1 <= |a|
    ensures (a + b)[0] == a[0] && (a + b)[1..] == a[1..] + b
  {
  }

  /** One element before a non-empty sequence: that element first, the sequence after it, and its last element last. */
  lemma OneBefore<T>(a: seq<T>, s: seq<T>)
    requires |a| == 1 && 1 <= |s|
    ensures (a + s)[0] == a[0] && (a + s)[1..] == s && (a + s)[|a + s| - 1] == s[|s| - 1]
  {
  }

  /** A property of both ends of `a` and of the last element of `s` holds at both ends of `a + s`. */
  lemma EndsOfConcat<T>(a: seq<T>, s: seq<T>, p: T -> bool)
    requires 1 <= |a| && 1 <= |s| && p(a[0]) && p(s[|s| - 1])
    ensures p((a + s)[0]) && p((a + s)[|a + s| - 1])
  {
    assert (a + s)[|a + s| - 1] == s[|s| - 1];
  }

  /** Concatenation is associative. */
  lemma ConcatAssoc<T>(x: seq<T>, y: seq<T>, z: seq<T>)
    ensures x + (y + z) == (x + y) + z
  {
  }

  /** A prefix of a suffix is a slice. */
  lemma SliceOfSuffix<T>(s: seq<T>, i: nat, n: nat, suffix: seq<T>, prefix: seq<T>)
    requires i + n <= |s| && suffix == s[i..] && prefix == suffix[..n]
    ensures prefix == s[i..i + n]
  {
  }

  /** A non-empty sequence is its head followed by its tail. */
  lemma HeadTail<T>(s: seq<T>)
    requires 1 <= |s|
    ensures s == [s[0]] + s[1..]
  {
  }

  /** A property of a suffix's elements from position `n` on holds for the same elements of the whole. */
  lemma SuffixTail<T>(s: seq<T>, i: nat, suffix: seq<T>, n: nat, p: T -> bool)
    requires i <= |s| && suffix == s[i..] && n <= |suffix|
    requires forall k :: n <= k < |suffix| ==> p(suffix[k])
    ensures forall k :: i + n <= k < |s| ==> p(s[k])
  {
    forall k | i + n <= k < |s|
      ensures p(s[k])
    {
      assert s[k] == suffix[k - i];
    }
  }
}
